=== FILE: README.md ===
# Kaito Lua bridge, sandbox surface and settings layer, in Dafny

This project models three sequential pieces of Kaito, a chat bot that embeds a
Lua interpreter to run trusted bot scripts and untrusted sandboxed scripts:

- **The async bridge** (`LuaState::think`, `create_future`, `async.delay`).
  A registry keeps pending futures alive under registry keys. A FIFO channel
  carries callback descriptors `(key, optional sandbox run, completion)`.
  `think` calls the mode's `think` hook (`sandbox.think` or `bot.think`) and
  then drains the channel. For each descriptor it runs the completion, fetches
  the future and its `__handle_resolve` or `__handle_reject` function, and
  resolves the future. Sandboxed runtimes go through `sandbox.async_callback`;
  trusted runtimes call the function directly. The registry key is then
  dropped. `async.delay` registers a future and spawns a task that enqueues
  one descriptor once the wait is over.
- **The sandbox object** (`SandboxState`): the quotas a run starts with, the
  `print`, `error`, `get_instructions_run`, `set_instructions_run`,
  `set_state` and `terminate` methods, and the `SandboxLimits` accessors.
- **The settings layer** (`Setting<T>`): validating the default on creation,
  two caches of overrides (per channel and per server), precedence flipped by
  `SERVER_OVERRIDE`, cache insert and flush, and the `bool` and `String`
  value types.

The interpreter is an oracle `Interp = Call -> Reply`. The fallible steps of
the Rust code that enter Lua (calling a `think` hook, creating a string,
fetching a handler, calling a handler) are each one `Call`. The few steps that
are taken never to fail instead are listed under "Left out". The oracle says whether
that call raised, and with which message. A tick returns the calls it made, in
order, so contracts can speak about what reached the interpreter. A
completion closure is modelled by what it computed: `Yields(values)` or
`Rejects(message)`. Spawned tasks whose wait has not elapsed are kept in
`timers`, and `Runtime.Fire` is the environment step that lets one of them
finish.

Modules: `Results` (Option/Outcome/Result), `Lua` (values, calls, the oracle),
`Sandbox`, `Runtime` (the `LuaState`), `KeepAlive` (the registry-key
discipline and its invariant), `Async`, `Text` (`str::trim`, `u32::from_str`,
UTF-8 length) and `Settings`.

### Behaviour worth noting

- A descriptor whose resolution fails keeps its registry key. Each step of the
  drain loop ends in `?`, so a failure returns before `remove_registry_value`
  (`src/modules/lua/state.rs:156-205`) and the key leaks
  (`KeepAlive.FailedThinkLeaksKey`). Dropping mlua's `RegistryKey` does not
  free the slot; it only queues it for `Lua::expire_registry_values`, which
  this code never calls, so the value stays reachable.
- The sandbox route always passes `true` as the success flag, rejections
  included (`src/modules/lua/state.rs:173-190`). Only the choice of
  `__handle_resolve` or `__handle_reject` records the outcome, and on the
  sandbox route that function is fetched but never called. A rejection is
  therefore indistinguishable from a resolution with the message as its only
  value (`Runtime.SandboxedRejectLooksResolved`).
- `print` and `error` neither consult nor decrement `lines_left` or
  `characters_left` (`src/modules/lua/state.rs:249-257`). None of `print`,
  `error`, `set_instructions_run` and `terminate` touches the quota counters
  (`Sandbox.ApplyCounters`).
- `async.delay` creates and registers its future before it checks the
  duration (`src/modules/lua/lib/async.rs:35-39`), so a rejected duration still
  grows the registry (`Async.DelayGrowsRegistry`).
- When `sandbox.run` raises, `run_sandboxed` returns early and drops the
  receiver it created (`src/modules/lua/state.rs:119, 136`), while the run
  stays installed as the ambient sandbox state. Whatever the run sends after
  that is lost (`Runtime.RunSandboxed`).

## Model

| member | source | states |
|---|---|---|
| Runtime.Think | src/modules/lua/state.rs:141-150 | The first call is the mode's `think` hook (`sandbox` table when sandboxed, `bot` otherwise) and no other call is a hook call. If the hook raises, nothing is drained and the state is unchanged. Otherwise the rest of the tick is exactly the drain: its calls, outcome and popped count. Success means no call raised; a failure is a missing registry value or carries the message of the last call, which raised. |
| Runtime.Drain | src/modules/lua/state.rs:152-209 | Descriptors are popped from the front; what remains queued is exactly the suffix not popped. Success means the whole queue was popped; failure stops right after the failing descriptor. The registry loses exactly the keys of the descriptors that resolved, so the failing one keeps its key. Success means no call raised; a failure is a missing registry value or carries the message of the last call, which raised. |
| Runtime.DrainStopsAtFailure | src/modules/lua/state.rs:156-205 | When the head's resolution fails, the drain ends with that error and those calls after popping only the head: later descriptors stay queued and the registry is unchanged. |
| Runtime.DrainSplit | src/modules/lua/state.rs:152-209 | FIFO: if draining `q1` succeeds, draining `q1 + q2` makes exactly `q1`'s calls first and then continues with `q2` from the state `q1` left. |
| Runtime.Resolve | src/modules/lua/state.rs:156-202 | `Yields(vals)` selects `__handle_resolve` with `vals`; `Rejects(msg)` selects `__handle_reject` with `[msg]`. A trusted runtime calls the handler with `(future, true, values…)`. A sandboxed runtime with a run calls `async_callback(run, future, true, values…)`, so the flag is true even for rejections. A sandboxed runtime without a run invokes nothing. A missing registry value or any raising call is an error. A rejection first creates its message string, and whenever that succeeds and the future is registered the handler is fetched, even on the sandbox route where it is then not called. |
| Runtime.SandboxedRejectLooksResolved | src/modules/lua/state.rs:156-190 | On the sandbox route, a rejection with message `m` ends in the very same `async_callback` call as a resolution yielding `[m]`, because the flag is always `true`. |
| Runtime.Fire | src/modules/lua/lib/async.rs:46-56 | A spawned task finishing moves its descriptor from the running tasks to the back of the queue; the registry is untouched. |
| Runtime.RunSandboxed | src/modules/lua/state.rs:112-139 | A new run starts with `instructions_run = 0`, `lines_left = 10`, `characters_left = 2000`, `http_calls_left = 2` and an empty channel. It becomes the ambient sandbox state before `sandbox.run` is called and stays installed even when that call raises. The host's receiver stays open exactly when the call returns, since an error drops it. A failed `sandbox.run` lookup changes nothing. |
| Runtime.SetState | src/modules/lua/state.rs:268-271 | `set_state` makes the run the ambient sandbox state and changes nothing else. |
| Async.SetStateRoutesDelay | src/modules/lua/lib/async.rs:43 | In a sandboxed state, a delay made after `set_state(run)` resolves on the next tick through `sandbox.async_callback(run, future, true)`: the delay captured the run that was set. |
| KeepAlive.DrainInv | src/modules/lua/state.rs:165-205 | Whatever the interpreter does, a drain keeps the keep-alive invariant: every pending descriptor's key is registered, pending keys are unique, and registered keys are below the next fresh key. |
| KeepAlive.ThinkInv | src/modules/lua/state.rs:141-212 | A tick keeps the keep-alive invariant. |
| KeepAlive.DrainCompletes | src/modules/lua/state.rs:152-209 | When no interpreter call raises, a drain under the invariant succeeds and empties the queue. |
| KeepAlive.ThinkCompletes | src/modules/lua/state.rs:141-212 | When no interpreter call raises, a tick resolves every queued future, frees exactly the queue's keys and leaves spawned tasks alone. |
| KeepAlive.ThinkSingle | src/modules/lua/state.rs:141-209 | A tick over one registered descriptor makes the hook call followed by that descriptor's resolution calls, and frees its key. |
| KeepAlive.FailedThinkLeaksKey | src/modules/lua/state.rs:165-205 | After a failed tick, the failing descriptor's key is still registered, but no pending descriptor holds it any more: the future is never released, since nothing calls `expire_registry_values`. |
| KeepAlive.FireInv | src/modules/lua/lib/async.rs:46-56 | A spawned task finishing keeps the keep-alive invariant. |
| KeepAlive.RegisterInv | src/modules/lua/lib/async.rs:16 | Registering a future under the next fresh key keeps the invariant. |
| KeepAlive.SpawnInv | src/modules/lua/lib/async.rs:46-56 | Spawning a task whose descriptor holds a registered key that no pending descriptor holds keeps the invariant. |
| Async.CreateFuture | src/modules/lua/lib/async.rs:11-19 | Succeeds exactly when `async.__RustFuture` returns a table. That table is registered under a key not registered before, and the key and the same table are returned. A raising call surfaces its message. |
| Async.Delay | src/modules/lua/lib/async.rs:21-58 | A `create_future` failure becomes the call's error with the oracle's message, which stands for mlua's `Display` text, and nothing changes. Otherwise the call fails with "Invalid duration" exactly when the sign bit is set (-0.0 included) or the value is infinite or NaN; even then the future stays registered and no task is spawned. A valid call returns the future table and spawns one task whose descriptor holds the future's key, the ambient sandbox state, and an empty value list. |
| Async.DelayGrowsRegistry | src/modules/lua/lib/async.rs:35-39 | Whether or not the duration is accepted, a delay whose future was created grows the registry by exactly one entry. |
| Async.DelayInv | src/modules/lua/lib/async.rs:34-58 | A delay keeps the keep-alive invariant. |
| Async.DelayResolvesOnNextTick | src/modules/lua/lib/async.rs:41-58 | After a valid delay's task fires into an empty queue, a tick whose calls all return makes the hook call, fetches the future's `__handle_resolve`, and resolves it through the route the mode and the captured run select. It leaves the registry as it was before the delay and the spawned tasks as before. |
| Async.TickAfterDelay | src/modules/lua/state.rs:141-209 | A tick over a fired delay's descriptor succeeds, frees its key and makes exactly the hook call plus the delay's resolution calls. |
| Async.FireDelay | src/modules/lua/lib/async.rs:46-56 | Firing a valid delay's task puts exactly its descriptor on an empty queue; the registry is the old one plus the future's key. |
| Async.ResolveDelayed | src/modules/lua/state.rs:156-202 | A fired delay's descriptor is resolved with `__handle_resolve`, the future and `true`, and no further values. |
| Sandbox.Print | src/modules/lua/state.rs:249-252 | `print(s)` appends `Out(s)` while the host holds the receiver and is silently dropped otherwise. It never fails and never touches the counters. |
| Sandbox.ErrorMessage | src/modules/lua/state.rs:254-257 | `error(s)` appends `Error(s)` while the host holds the receiver and is silently dropped otherwise. It never fails and never touches the counters. |
| Sandbox.SetInstructionsRun | src/modules/lua/state.rs:259-266 | After `set_instructions_run(v)`, `get_instructions_run()` reads `v`; nothing is emitted. |
| Sandbox.DropReceiver | src/modules/lua/state.rs:250 | The host dropping its receiver closes the channel and changes nothing else. |
| Sandbox.ParseReason | src/modules/lua/state.rs:281-289 | A parsed reason is named by exactly the text that was parsed. |
| Sandbox.ParseReasonRoundTrip | src/modules/lua/state.rs:281-282 | Every termination reason parses back from its name. |
| Sandbox.Terminate | src/modules/lua/state.rs:280-294 | Succeeds exactly for "exec" and then emits exactly one `Terminated(ExecutionQuota)`, dropped if the receiver is gone. Any other text fails with `unknown termination reason: "<text>"` and emits nothing. |
| Sandbox.SetLinesLeft | src/modules/lua/state.rs:242-245 | `lines_left()` reads the value just set; the other counters are unchanged. |
| Sandbox.SetCharactersLeft | src/modules/lua/state.rs:242-245 | `characters_left()` reads the value just set; the other counters are unchanged. |
| Sandbox.ApplyDeliversRequested | src/modules/lua/state.rs:249-294 | While the host holds the receiver, a sequence of method calls delivers exactly the messages the calls request, in call order. |
| Sandbox.ApplyAfterDropDeliversNothing | src/modules/lua/state.rs:249-257 | Once the receiver is dropped nothing more is delivered, and no call fails because of it. |
| Sandbox.ApplyCounters | src/modules/lua/state.rs:247-295 | None of `print`, `error`, `set_instructions_run` and `terminate` changes the quota counters, and `instructions_run` holds the last value set. |
| Settings.Create | src/settings.rs:62-80 | Succeeds exactly when the default passes the type's `is_valid`, returning that error otherwise. The setting keeps its name, flags, help, parameters and default, and starts with both caches empty. |
| Settings.Value | src/settings.rs:82-104 | The result is the default or a cached value for that server or channel. With `SERVER_OVERRIDE` a cached server value wins; without it a cached channel value wins. A lone cached value wins either way, and with neither the default applies. |
| Settings.FlagMattersOnlyWhenBothSet | src/settings.rs:82-104 | The override flag changes the read value only when both a channel value and a server value are cached. |
| Settings.FlushCache | src/settings.rs:106-109 | Both caches are emptied; name, flags, help, parameters and default are unchanged. |
| Settings.FlushedReadsDefault | src/settings.rs:106-109 | After a flush every server/channel pair reads the default. |
| Settings.SetValue | src/settings.rs:137-150 | A parse failure returns that error and changes nothing. Success overwrites only the cache entry of the given channel or server, and everything else stays the same. |
| Settings.SetChannelThenRead | src/settings.rs:137-150 | A stored channel value is what that channel reads, unless an overriding server value is cached. |
| Settings.SetServerThenRead | src/settings.rs:137-150 | A stored server value is what the server's channels read when the server overrides, and what channels without their own value read otherwise. |
| Settings.ParseBool | src/settings.rs:171-189 | Succeeds exactly when the trimmed text is `true`, `false` or a `u32`. A `u32` reads as true exactly when it is positive. A failure is `UnexpectedInput(Bool, input)` carrying the untrimmed input. |
| Settings.ParseBoolFormat | src/settings.rs:174-178 | `true` and `false` parse back to their values. |
| Settings.ParseBoolNumber | src/settings.rs:180-182 | The decimal form of every `u32` parses, as true exactly when it is positive. |
| Settings.ParseBoolOverflow | src/settings.rs:180-188 | A decimal number past `u32` range is rejected, not read as true. |
| Settings.ParseBoolPadding | src/settings.rs:172 | Surrounding whitespace never changes whether a bool parses or what it parses to. |
| Settings.StringIsValid | src/settings.rs:200-213 | Fails exactly when a maximum is set and the UTF-8 byte length exceeds it, with `ExceededMaxLength(max, length)`. |
| Settings.StringSetValue | src/settings.rs:215-219 | Returns the input unchanged and untrimmed exactly when it is valid, and the validation error otherwise. |
| Settings.StringLimitBounds | src/settings.rs:200-213 | The limit counts bytes: more characters than the limit always fails, at most a quarter of the limit always passes, and for ASCII the limit is on characters. |
| Settings.StringLimitCountsBytes | src/settings.rs:202 | `"é"` under a limit of 1 fails with `ExceededMaxLength(1, 2)`. |
| Settings.CreateStringSetting | src/settings.rs:69 | A `String` setting is created exactly when its default fits the limit. |
| Text.Trim | src/settings.rs:172 | The result neither starts nor ends with Unicode whitespace. |
| Text.TrimExact | src/settings.rs:172 | Trimming text with no outer whitespace, padded with whitespace, gives back that text. |
| Text.TrimPadding | src/settings.rs:172 | Adding whitespace around a string does not change its trimmed form. |
| Text.ParseU32 | src/settings.rs:180 | A parse result is at most `u32::MAX`, and the text starts with a digit or `+`. The exact set of accepted texts is given by `Text.ParseU32Canonical` and `Text.ParseU32Padded`. |
| Text.ParseU32Decimal | src/settings.rs:180 | Every `u32` parses back from its decimal form, with or without a leading `+`. |
| Text.ParseU32Canonical | src/settings.rs:180 | Every accepted text is an optional `+`, some zeros, then the decimal form of the value read. |
| Text.ParseU32Padded | src/settings.rs:180 | An optional `+`, any number of zeros and the decimal form of `n` read as `n` exactly when `n` fits in 32 bits, and are rejected otherwise. |
| Text.ParseU32Rejects | src/settings.rs:180 | Decimal forms past `u32::MAX` and anything starting with `-` are rejected. |
| Text.Utf8LenBounds | src/settings.rs:202 | A string takes one to four bytes per character, and exactly one per character when it is ASCII. |

## Left out

- `LuaState::create_state` is not modelled: the library selection, `lib_os`, `lib_include`, `include_lua`, `lib_bot` and `set_memory_limit` are interpreter set-up whose code is not part of this model. `Runtime.Empty` stands for the state it produces.
- `run_bot_command` is not modelled: it is a single hook call, outside the bridge.
- `http_fetch` and the `governor` rate limiter are not modelled: their code is not part of this model and the limiter depends on time. The `http_calls_left` counter is kept but nothing reads it.
- The tokio task and the wait (`delay_for`, `Duration::from_secs_f64`) are not modelled. Time passing is the environment step `Runtime.Fire`, and a duration is its sign bit, its class (finite, infinite, NaN) and, when finite, its magnitude in seconds.
- Crossbeam channels, `DashMap` and the atomics are modelled as plain sequences, maps and fields. Thread-safety and memory orderings are not modelled.
- The Lua interpreter is an oracle. The bodies of `__handle_resolve`, `__handle_reject`, `sandbox.async_callback` and `sandbox.run` are not modelled: only whether each call raises is.
- Async.CreateFuture: `globals().get("async")`, `get("__RustFuture")` and the call are folded into one call. A non-table result raises a fixed conversion message that only approximates mlua's wording. `create_registry_value` is taken never to fail.
- Runtime.RunSandboxed: the lookups of `sandbox` and `sandbox.run` are folded into one call, and `set_named_registry_value` is taken never to fail.
- Runtime.RunSandboxed: the registry, queue and timers are unchanged only because the model's `sandbox.run` cannot call back into the host. In the code, `sandbox.run` may call `async.delay` and so register futures and spawn tasks.
- Runtime.RunSandboxed: for the same reason, the new run comes back with no delivered messages and `instructions_run` still 0, the other runs are unchanged and the new run is still the ambient state. In the code, the script `sandbox.run` executes may call `print`, `error`, `set_instructions_run` or `set_state` on its run. Its messages may then already be waiting in the receiver, and its counter or the ambient state may differ. Each such call is modelled on its own (`Sandbox.Apply`, `Runtime.SetState`).
- Runtime.SetState: the `set_named_registry_value` write is taken never to fail, so `set_state` always succeeds.
- Runtime.Resolve: converting the captured run with `to_lua` and `remove_registry_value` are taken never to fail.
- Argument conversion by mlua before a method body runs is not modelled. This covers `u64` for `set_instructions_run`, `String` for `print`, `error` and `terminate`, and `f64` for `async.delay`. The model's parameter types (`U64`, `string`, `Duration`) admit only converted values, so calls such as `set_instructions_run(-1)` or `delay("x")`, which raise a conversion error and change nothing, cannot be expressed.
- Runtime.Think: the registry and timers change only by the drained keys because handlers, `sandbox.async_callback` and the `think` hooks cannot call back into the host in the model. In the code they may call `async.delay` during a tick. `Runtime.SameOutsideDrain` rests on the same abstraction.
- Runtime.Think: the drain pops the descriptors queued when it starts. The code calls `try_recv` on every iteration, so a task that finishes during the tick, such as one spawned by `delay(0)`, can be drained in the same tick.
- KeepAlive.ThinkCompletes: "leaves spawned tasks alone" holds because no interpreter call can spawn a task in the model. In the code a handler that calls `async.delay` adds a task.
- Sandbox.ApplyCounters: covers `print`, `error`, `set_instructions_run` and `terminate` only. `http_fetch` may read or change `http_calls_left` in code that is not part of this model, and `set_state` is modelled as `Runtime.SetState`.
- Async.Delay: `wrap_future!` raises `RuntimeError(err.to_string())`, the `Display` text of mlua's error, which for a Lua runtime error starts with `runtime error: `. The model passes the oracle's message through unchanged, so that message stands for the `Display` text, not for the raised message itself.
- Async.Delay: a finite, non-negative duration too large for `Duration` (2^64 seconds or more) makes `Duration::from_secs_f64` panic. The model accepts it and spawns the task.
- Runtime.Resolve: a registry key is a number, so a descriptor whose key was already dropped can be expressed; the model reports it as an error. mlua's move-only `RegistryKey` makes that case unreachable in the code.
- The database reads and writes behind the settings caches are TODO stubs in the code, so a cache miss always reads nothing. `Setting::value` cannot fail and is modelled as returning the value.
- The `settings!` macro, the `bitflags`, `serde` and `thiserror` derivations and the error messages' `Display` text are not modelled; errors are kept as their variants.
- `SandboxMsg` delivery to the host's receiver thread is the delivered sequence. The messages the host has not yet read are not distinguished from those it has.

=== FILE: async.dfy ===
/**
 * The `async` library: `create_future`, the `wrap_future!` error conversion,
 * and `async.delay`.
 *
 * A delay's native wait is not modelled: a valid `delay` spawns a task
 * (appended to `timers`), and the environment step `Runtime.Fire` stands for
 * the wait elapsing and the task enqueuing its descriptor.
 */
module Async {
  import opened Results
  import opened Lua
  import opened Runtime
  import opened KeepAlive

  /** Magnitudes of finite durations, in seconds. */
  type Magnitude = x: real | x >= 0.0

  /**
   * An `f64` argument reduced to what `delay` inspects: its sign bit and
   * whether it is finite, infinite or NaN. `Finite(true, 0.0)` is -0.0.
   */
  datatype Duration =
    | Finite(signNegative: bool, seconds: Magnitude)
    | Infinite(signNegative: bool)
    | NaN(signNegative: bool)

  /** `f64::is_sign_negative`: the sign bit, whatever the class. */
  predicate IsSignNegative(d: Duration)
  {
    d.signNegative
  }

  /** `f64::is_finite`. */
  predicate IsFinite(d: Duration)
  {
    d.Finite?
  }

  const InvalidDuration: string := "Invalid duration"

  /** The error raised when `async.__RustFuture` returns something other than a table. */
  const NotATable: string := "error converting Lua value to table"

  /** A future created and registered. */
  datatype Created = Created(rt: Runtime, key: Key, future: TableRef)

  /**
   * `create_future`: call `async.__RustFuture`, keep the table it returns alive
   * under a fresh registry key, and return the key with the table.
   */
  function CreateFuture(rt: Runtime, interp: Interp): (r: Result<Created, string>)
    ensures interp(CallRustFuture).Raised? ==> r == Err(interp(CallRustFuture).message)
    ensures r.Ok? <==> interp(CallRustFuture).Returned? && interp(CallRustFuture).value.Table?
    ensures r.Ok? ==>
              && r.value.future == interp(CallRustFuture).value.table
              && r.value.rt.registry == rt.registry[r.value.key := r.value.future]
              && r.value.key < r.value.rt.nextKey
              && ((forall k :: k in rt.registry ==> k < rt.nextKey) ==>
                    r.value.key !in rt.registry && (forall k :: k in r.value.rt.registry ==> k < r.value.rt.nextKey))
              && r.value.rt == rt.(registry := r.value.rt.registry, nextKey := r.value.rt.nextKey)
  {
    match interp(CallRustFuture)
    case Raised(m) => Err(m)
    case Returned(v) =>
      if v.Table? then
        var key := rt.nextKey;
        Ok(Created(rt.(registry := rt.registry[key := v.table], nextKey := key + 1), key, v.table))
      else Err(NotATable)
  }

  /** The state after a call of `delay`, and what the call returned to Lua. */
  datatype DelayResult = DelayResult(rt: Runtime, result: Result<Value, string>)

  /** The descriptor a valid delay's task enqueues once the wait elapses: an empty value list. */
  function DelayDescriptor(key: Key, state: Option<RunId>): Descriptor
  {
    Descriptor(key, state, Yields([]))
  }

  /**
   * `async.delay(duration)`. The future is created and registered first; only
   * then is the duration checked, so a rejected duration still leaves a
   * registered future behind. A valid duration spawns exactly one task, which
   * captures the ambient sandbox state.
   */
  function Delay(rt: Runtime, duration: Duration, interp: Interp): (r: DelayResult)
    ensures CreateFuture(rt, interp).Err? ==> r.rt == rt && r.result == Err(CreateFuture(rt, interp).error)
    ensures CreateFuture(rt, interp).Ok? ==>
              var c := CreateFuture(rt, interp).value;
              && r.rt.registry == c.rt.registry
              && (r.result.Ok? <==> !IsSignNegative(duration) && IsFinite(duration))
              && (r.result.Err? ==> r.result.error == InvalidDuration && r.rt.timers == rt.timers)
              && (r.result.Ok? ==> r.result.value == Table(c.future)
                                   && r.rt.timers == rt.timers + [DelayDescriptor(c.key, rt.ambient)])
    ensures r.rt.queue == rt.queue && r.rt.ambient == rt.ambient && r.rt.sandboxed == rt.sandboxed
            && r.rt.runs == rt.runs
  {
    match CreateFuture(rt, interp)
    case Err(m) => DelayResult(rt, Err(m))
    case Ok(c) =>
      if IsSignNegative(duration) || !IsFinite(duration) then
        DelayResult(c.rt, Err(InvalidDuration))
      else
        DelayResult(c.rt.(timers := c.rt.timers + [DelayDescriptor(c.key, c.rt.ambient)]), Ok(Table(c.future)))
  }

  /** Whether or not the duration is accepted, a delay that created its future grows the registry by one entry. */
  lemma DelayGrowsRegistry(rt: Runtime, duration: Duration, interp: Interp)
    requires Inv(rt)
    requires CreateFuture(rt, interp).Ok?
    ensures |Delay(rt, duration, interp).rt.registry| == |rt.registry| + 1
  {
    var c := CreateFuture(rt, interp).value;
    assert c.rt.registry.Keys == rt.registry.Keys + {c.key};
  }

  /** Creating a future and spawning a delay keep the keep-alive invariant. */
  lemma DelayInv(rt: Runtime, duration: Duration, interp: Interp)
    requires Inv(rt)
    ensures Inv(Delay(rt, duration, interp).rt)
  {
    if CreateFuture(rt, interp).Ok? {
      var c := CreateFuture(rt, interp).value;
      RegisterInv(rt, c.future);
      FreshKeyUnheld(rt);
      assert c.rt == rt.(registry := rt.registry[rt.nextKey := c.future], nextKey := rt.nextKey + 1);
      if !IsSignNegative(duration) && IsFinite(duration) {
        assert Pending(c.rt) == Pending(rt);
        SpawnInv(c.rt, DelayDescriptor(c.key, rt.ambient));
        assert Delay(rt, duration, interp).rt == c.rt.(timers := c.rt.timers + [DelayDescriptor(c.key, rt.ambient)]);
      } else {
        assert Delay(rt, duration, interp).rt == c.rt;
      }
    } else {
      assert Delay(rt, duration, interp).rt == rt;
    }
  }

  /**
   * The calls that resolve a fired delay's future `fut`: fetch its resolve
   * function, then call it directly (trusted runtime), hand it to
   * `sandbox.async_callback` with the captured run (sandboxed runtime with a
   * run), or call nothing (sandboxed runtime without a run). The value list is
   * empty, so the only arguments are the future and the flag.
   */
  function DelayResolutionCalls(sandboxed: bool, fut: TableRef, state: Option<RunId>): seq<Call>
  {
    [GetHandler(fut, HandleResolve)]
    + (if !sandboxed then [InvokeHandler(fut, HandleResolve, [Table(fut), Bool(true)])]
       else if state.Some? then [InvokeAsyncCallback([SandboxUserData(state.value), Table(fut), Bool(true)])]
       else [])
  }

  /**
   * One delay followed by its task firing and a tick whose interpreter calls
   * all return: the tick resolves that future with an empty value list
   * through the route the runtime's mode and the captured sandbox state
   * select, and its registry key is released.
   */
  lemma DelayResolvesOnNextTick(rt: Runtime, duration: Duration, interp: Interp)
    requires Inv(rt) && rt.queue == []
    requires forall c :: interp(c).Returned?
    requires interp(CallRustFuture).value.Table?
    requires !IsSignNegative(duration) && IsFinite(duration)
    ensures
      var fut := interp(CallRustFuture).value.table;
      var t := Think(Fire(Delay(rt, duration, interp).rt, |rt.timers|), interp);
      && t.outcome == Pass
      && t.rt.registry == rt.registry
      && t.rt.timers == rt.timers
      && t.calls == [CallThink(ThinkTable(rt.sandboxed))] + DelayResolutionCalls(rt.sandboxed, fut, rt.ambient)
  {
    var c := CreateFuture(rt, interp).value;
    FireDelay(rt, duration, interp);
    var r2 := Fire(Delay(rt, duration, interp).rt, |rt.timers|);
    TickAfterDelay(r2, c.key, rt.ambient, interp);
  }

  /**
   * `set_state` decides which run a later delay reports to: in a sandboxed
   * state, a delay made after `set_state(run)` resolves through the async
   * callback with that run's state as its first argument.
   */
  lemma SetStateRoutesDelay(rt: Runtime, run: RunId, duration: Duration, interp: Interp)
    requires Inv(rt) && rt.queue == [] && rt.sandboxed
    requires forall c :: interp(c).Returned?
    requires interp(CallRustFuture).value.Table?
    requires !IsSignNegative(duration) && IsFinite(duration)
    ensures
      var fut := interp(CallRustFuture).value.table;
      var s := SetState(rt, run);
      var t := Think(Fire(Delay(s, duration, interp).rt, |s.timers|), interp);
      && t.outcome == Pass
      && t.calls[|t.calls| - 1] == InvokeAsyncCallback([SandboxUserData(run), Table(fut), Bool(true)])
  {
    var s := SetState(rt, run);
    assert Inv(s) by {
      assert Pending(s) == Pending(rt);
    }
    DelayResolvesOnNextTick(s, duration, interp);
  }

  /** A tick over a queue holding only a fired delay's descriptor, with every interpreter call returning. */
  lemma TickAfterDelay(rt: Runtime, key: Key, state: Option<RunId>, interp: Interp)
    requires rt.queue == [DelayDescriptor(key, state)] && key in rt.registry
    requires forall c :: interp(c).Returned?
    ensures
      var fut := rt.registry[key];
      var t := Think(rt, interp);
      && t.outcome == Pass
      && t.rt.registry == rt.registry - {key}
      && t.rt.timers == rt.timers
      && t.calls == [CallThink(ThinkTable(rt.sandboxed))] + DelayResolutionCalls(rt.sandboxed, fut, state)
  {
    assert rt.queue[0] == DelayDescriptor(key, state);
    ThinkSingle(rt, interp);
    ResolveDelayed(rt.(queue := []), key, state, interp);
  }

  /** Firing the task a valid delay spawned puts exactly its descriptor on an empty queue. */
  lemma FireDelay(rt: Runtime, duration: Duration, interp: Interp)
    requires Inv(rt) && rt.queue == []
    requires CreateFuture(rt, interp).Ok?
    requires !IsSignNegative(duration) && IsFinite(duration)
    ensures |rt.timers| < |Delay(rt, duration, interp).rt.timers|
    ensures
      var c := CreateFuture(rt, interp).value;
      var r2 := Fire(Delay(rt, duration, interp).rt, |rt.timers|);
      && r2.queue == [DelayDescriptor(c.key, rt.ambient)]
      && r2.timers == rt.timers
      && r2.sandboxed == rt.sandboxed
      && c.key in r2.registry && r2.registry[c.key] == c.future
      && r2.registry - {c.key} == rt.registry
  {
    var c := CreateFuture(rt, interp).value;
    var r1 := Delay(rt, duration, interp).rt;
    assert r1.timers == rt.timers + [DelayDescriptor(c.key, rt.ambient)];
    assert r1.timers[|rt.timers|] == DelayDescriptor(c.key, rt.ambient);
    assert r1.timers[..|rt.timers|] == rt.timers;
    assert c.key !in rt.registry;
    assert r1.registry - {c.key} == rt.registry;
  }

  /** How a fired delay's descriptor is resolved when every interpreter call returns. */
  lemma ResolveDelayed(rt: Runtime, key: Key, state: Option<RunId>, interp: Interp)
    requires key in rt.registry
    requires forall c :: interp(c).Returned?
    ensures
      var fut := rt.registry[key];
      Resolve(rt, DelayDescriptor(key, state), interp).calls == DelayResolutionCalls(rt.sandboxed, fut, state)
  {
    var fut := rt.registry[key];
    var dd := DelayDescriptor(key, state);
    assert Values(dd.completion) == [];
    assert [Table(fut), Bool(true)] + Values(dd.completion) == [Table(fut), Bool(true)];
    if state.Some? {
      var sb := [SandboxUserData(state.value), Table(fut), Bool(true)];
      assert sb + Values(dd.completion) == sb;
    }
  }

}

=== FILE: keepalive.dfy ===
/**
 * The keep-alive discipline of pending futures.
 *
 * Every descriptor that is still pending (spawned but not fired, or queued
 * but not drained) holds a registry key; the invariant `Inv` says that such a
 * key names a live registry value and that no two pending descriptors share a
 * key. Registering a future, firing a task and ticking all preserve it, and
 * under it a tick whose interpreter calls all return drains the whole queue.
 */
module KeepAlive {
  import opened Results
  import opened Lua
  import opened Runtime

  /** Descriptors not yet drained: the queue, then the tasks still running. */
  function Pending(rt: Runtime): seq<Descriptor>
  {
    rt.queue + rt.timers
  }

  /** The keys of a descriptor sequence, position by position. */
  function KeySeq(ds: seq<Descriptor>): (ks: seq<Key>)
    ensures |ks| == |ds|
    ensures forall i :: 0 <= i < |ds| ==> ks[i] == ds[i].key
    decreases |ds|
  {
    if |ds| == 0 then [] else [ds[0].key] + KeySeq(ds[1..])
  }

  /** How many descriptors hold each key. */
  function KeyBag(ds: seq<Descriptor>): multiset<Key>
  {
    multiset(KeySeq(ds))
  }

  /** No key is held by two descriptors. */
  ghost predicate Unique(ds: seq<Descriptor>)
  {
    forall k :: KeyBag(ds)[k] <= 1
  }

  ghost predicate Inv(rt: Runtime)
  {
    && (forall k :: k in rt.registry ==> k < rt.nextKey)
    && (forall d :: d in Pending(rt) ==> d.key in rt.registry)
    && Unique(Pending(rt))
  }

  lemma KeyBagConcat(a: seq<Descriptor>, b: seq<Descriptor>)
    ensures KeyBag(a + b) == KeyBag(a) + KeyBag(b)
  {
    assert KeySeq(a + b) == KeySeq(a) + KeySeq(b);
  }

  lemma KeyInKeySeq(ds: seq<Descriptor>, d: Descriptor)
    requires d in ds
    ensures d.key in KeyBag(ds)
  {
    var i :| 0 <= i < |ds| && ds[i] == d;
    assert KeySeq(ds)[i] == d.key;
  }

  lemma KeyBagMember(ds: seq<Descriptor>, k: Key)
    ensures k in KeyBag(ds) ==> exists d :: d in ds && d.key == k
  {
    if k in KeyBag(ds) {
      var i :| 0 <= i < |ds| && KeySeq(ds)[i] == k;
      assert ds[i] in ds;
    }
  }

  /** A value at two positions of a sequence occurs at least twice in its multiset. */
  lemma TwoPositions(ks: seq<Key>, i: nat, j: nat)
    requires i < j < |ks|
    ensures ks[i] == ks[j] ==> multiset(ks)[ks[i]] >= 2
  {
    assert ks == ks[..j] + ks[j..];
    assert ks[i] in ks[..j];
    assert ks[j] in ks[j..];
  }

  /** Unique keys, stated position by position. */
  lemma {:induction false} UniqueIndices(ds: seq<Descriptor>)
    requires Unique(ds)
    ensures forall i, j :: 0 <= i < j < |ds| ==> ds[i].key != ds[j].key
  {
    forall i, j | 0 <= i < j < |ds|
      ensures ds[i].key != ds[j].key
    {
      TwoPositions(KeySeq(ds), i, j);
      assert KeyBag(ds)[ds[i].key] <= 1;
    }
  }

  /** Membership in `KeysOf`, stated through positions. */
  lemma {:induction false} KeysOfMembers(ds: seq<Descriptor>)
    ensures forall i :: 0 <= i < |ds| ==> ds[i].key in KeysOf(ds)
    ensures forall k :: k in KeysOf(ds) ==> exists i :: 0 <= i < |ds| && ds[i].key == k
    decreases |ds|
  {
    if |ds| > 0 {
      KeysOfMembers(ds[1..]);
      forall k | k in KeysOf(ds)
        ensures exists i :: 0 <= i < |ds| && ds[i].key == k
      {
        if k != ds[0].key {
          var i :| 0 <= i < |ds[1..]| && ds[1..][i].key == k;
          assert ds[i + 1].key == k;
        }
      }
    }
  }

  /** Dropping the head of a pending sequence keeps keys unique and frees the head's key. */
  lemma UniqueTail(ds: seq<Descriptor>)
    requires |ds| > 0 && Unique(ds)
    ensures Unique(ds[1..])
    ensures KeyBag(ds[1..])[ds[0].key] == 0
  {
    assert ds == [ds[0]] + ds[1..];
    KeyBagConcat([ds[0]], ds[1..]);
    assert KeyBag([ds[0]]) == multiset{ds[0].key};
    forall k
      ensures KeyBag(ds[1..])[k] <= 1
    {
      assert KeyBag(ds)[k] <= 1;
    }
    assert KeyBag(ds)[ds[0].key] <= 1;
  }

  lemma EmptyInv(sandboxed: bool)
    ensures Inv(Empty(sandboxed))
  {
  }

  /** Popping the head of the queue, with or without dropping its key, keeps the invariant. */
  lemma PopInv(rt: Runtime)
    requires Inv(rt) && |rt.queue| > 0
    ensures Inv(rt.(queue := rt.queue[1..]))
    ensures Inv(rt.(queue := rt.queue[1..], registry := rt.registry - {rt.queue[0].key}))
  {
    var ps := Pending(rt);
    var k0 := rt.queue[0].key;
    assert Pending(rt.(queue := rt.queue[1..])) == ps[1..];
    UniqueTail(ps);
    forall d | d in ps[1..]
      ensures d.key in rt.registry && d.key != k0
    {
      assert d in ps;
      KeyInKeySeq(ps[1..], d);
    }
  }

  /** A drain, whatever the interpreter does, keeps the invariant. */
  lemma {:induction false} DrainInv(rt: Runtime, interp: Interp)
    requires Inv(rt)
    ensures Inv(Drain(rt, interp).rt)
    decreases |rt.queue|
  {
    if |rt.queue| > 0 {
      PopInv(rt);
      var d := rt.queue[0];
      var popped := rt.(queue := rt.queue[1..]);
      if Resolve(popped, d, interp).outcome.Pass? {
        DrainInv(popped.(registry := popped.registry - {d.key}), interp);
      }
    }
  }

  lemma ThinkInv(rt: Runtime, interp: Interp)
    requires Inv(rt)
    ensures Inv(Think(rt, interp).rt)
  {
    DrainInv(rt, interp);
  }

  /** When no interpreter call raises, a drain empties the queue and frees every drained key. */
  lemma {:induction false} DrainCompletes(rt: Runtime, interp: Interp)
    requires Inv(rt)
    requires forall c :: interp(c).Returned?
    ensures Drain(rt, interp).outcome == Pass
    ensures Drain(rt, interp).rt.queue == []
    decreases |rt.queue|
  {
    if |rt.queue| > 0 {
      PopInv(rt);
      var d := rt.queue[0];
      assert d in Pending(rt);
      var popped := rt.(queue := rt.queue[1..]);
      assert Resolve(popped, d, interp).outcome.Pass?;
      DrainCompletes(popped.(registry := popped.registry - {d.key}), interp);
    }
  }

  /**
   * A tick whose interpreter calls all return resolves every queued future
   * and frees its key, leaving the spawned tasks alone.
   */
  lemma ThinkCompletes(rt: Runtime, interp: Interp)
    requires Inv(rt)
    requires forall c :: interp(c).Returned?
    ensures Think(rt, interp).outcome == Pass
    ensures Think(rt, interp).rt.queue == []
    ensures Think(rt, interp).rt.registry == rt.registry - KeysOf(rt.queue)
    ensures Think(rt, interp).rt.timers == rt.timers
  {
    DrainCompletes(rt, interp);
    assert rt.queue[..|rt.queue|] == rt.queue;
  }

  /** A tick over a queue holding one registered descriptor, with every interpreter call returning. */
  lemma ThinkSingle(rt: Runtime, interp: Interp)
    requires |rt.queue| == 1 && rt.queue[0].key in rt.registry
    requires forall c :: interp(c).Returned?
    ensures Think(rt, interp).outcome == Pass
    ensures Think(rt, interp).calls == [CallThink(ThinkTable(rt.sandboxed))] + Resolve(rt.(queue := []), rt.queue[0], interp).calls
    ensures Think(rt, interp).rt.registry == rt.registry - {rt.queue[0].key}
  {
    var d := rt.queue[0];
    var popped := rt.(queue := []);
    assert rt.queue[1..] == [];
    var rest := Drain(popped.(registry := popped.registry - {d.key}), interp);
    assert rest.calls == [] && rest.outcome == Pass;
    assert Drain(rt, interp).calls == Resolve(popped, d, interp).calls + rest.calls;
    assert rt.queue[..1] == [d];
  }

  /**
   * A tick that fails while resolving a descriptor leaves that descriptor's key
   * in the registry, yet no pending descriptor holds it any more: the future
   * it keeps alive is never released.
   */
  lemma FailedThinkLeaksKey(rt: Runtime, interp: Interp)
    requires Inv(rt)
    requires Think(rt, interp).outcome.Fail? && Think(rt, interp).popped > 0
    ensures rt.queue[Think(rt, interp).popped - 1].key in Think(rt, interp).rt.registry
    ensures forall d :: d in Pending(Think(rt, interp).rt) ==> d.key != rt.queue[Think(rt, interp).popped - 1].key
  {
    var r := Think(rt, interp);
    var p := r.popped;
    assert Released(r) == p - 1;
    assert rt.queue[p - 1] in Pending(rt);
    assert Pending(r.rt) == rt.queue[p..] + rt.timers;
    OrphanedKey(rt.queue, rt.timers, p);
  }

  /**
   * With unique keys, the key of the `p`-th queued descriptor is held neither
   * by the descriptors before it nor by any after it, queued or spawned.
   */
  lemma OrphanedKey(q: seq<Descriptor>, timers: seq<Descriptor>, p: nat)
    requires 0 < p <= |q| && Unique(q + timers)
    ensures q[p - 1].key !in KeysOf(q[..p - 1])
    ensures forall d :: d in q[p..] + timers ==> d.key != q[p - 1].key
  {
    var ps := q + timers;
    var k := q[p - 1].key;
    UniqueIndices(ps);
    assert ps[p - 1] == q[p - 1];
    var freed := q[..p - 1];
    KeysOfMembers(freed);
    forall i | 0 <= i < |freed|
      ensures freed[i].key != k
    {
      assert freed[i] == ps[i];
    }
    var rest := q[p..] + timers;
    forall d | d in rest
      ensures d.key != k
    {
      var j :| 0 <= j < |rest| && rest[j] == d;
      assert rest[j] == ps[p + j];
    }
  }

  /** Moving one element of `t` to the back of `q` keeps the bag of keys. */
  lemma KeyBagMove(q: seq<Descriptor>, t: seq<Descriptor>, i: nat)
    requires i < |t|
    ensures KeyBag((q + [t[i]]) + (t[..i] + t[i + 1..])) == KeyBag(q + t)
  {
    var a, b := t[..i], t[i + 1..];
    assert t == a + [t[i]] + b;
    KeyBagConcat(q, t);
    KeyBagConcat(a + [t[i]], b);
    KeyBagConcat(a, [t[i]]);
    KeyBagConcat(q + [t[i]], a + b);
    KeyBagConcat(q, [t[i]]);
    KeyBagConcat(a, b);
  }

  /** A spawned task finishing only reorders the pending descriptors. */
  lemma FireInv(rt: Runtime, i: nat)
    requires Inv(rt) && i < |rt.timers|
    ensures Inv(Fire(rt, i))
  {
    KeyBagMove(rt.queue, rt.timers, i);
    assert Pending(Fire(rt, i)) == (rt.queue + [rt.timers[i]]) + (rt.timers[..i] + rt.timers[i + 1..]);
    forall d | d in Pending(Fire(rt, i))
      ensures d in Pending(rt)
    {
    }
  }

  /** No pending descriptor holds the next fresh key. */
  lemma FreshKeyUnheld(rt: Runtime)
    requires Inv(rt)
    ensures rt.nextKey !in KeyBag(Pending(rt))
  {
    forall d | d in Pending(rt)
      ensures d.key != rt.nextKey
    {
      assert d.key in rt.registry;
    }
    KeyBagMember(Pending(rt), rt.nextKey);
  }

  /** Registering a value under the next fresh key keeps the invariant. */
  lemma RegisterInv(rt: Runtime, future: TableRef)
    requires Inv(rt)
    ensures Inv(rt.(registry := rt.registry[rt.nextKey := future], nextKey := rt.nextKey + 1))
  {
    var rt' := rt.(registry := rt.registry[rt.nextKey := future], nextKey := rt.nextKey + 1);
    assert Pending(rt') == Pending(rt);
    forall d | d in Pending(rt')
      ensures d.key in rt'.registry
    {
      assert d.key in rt.registry;
    }
  }

  /** Spawning a task whose descriptor holds a registered key no pending descriptor holds keeps the invariant. */
  lemma SpawnInv(rt: Runtime, d: Descriptor)
    requires Inv(rt) && d.key in rt.registry && d.key !in KeyBag(Pending(rt))
    ensures Inv(rt.(timers := rt.timers + [d]))
  {
    var rt' := rt.(timers := rt.timers + [d]);
    assert Pending(rt') == Pending(rt) + [d];
    KeyBagConcat(Pending(rt), [d]);
    assert KeyBag([d]) == multiset{d.key};
    forall k
      ensures KeyBag(Pending(rt'))[k] <= 1
    {
      assert KeyBag(Pending(rt))[k] <= 1;
    }
    forall e | e in Pending(rt')
      ensures e.key in rt'.registry
    {
      assert e in Pending(rt) || e == d;
    }
  }
}

=== FILE: lua.dfy ===
/**
 * The embedded Lua interpreter, seen only from the outside.
 *
 * Lua values are reduced to the few shapes the host code builds or inspects,
 * and every fallible call the host makes into the interpreter is a `Call`.
 * The interpreter's answer to a call is given by an `Interp` oracle: the model
 * does not know what the Lua code behind a call does, only that it either
 * returns a value or raises an error.
 */
module Lua {

  /** A registry key (`mlua::RegistryKey`) keeping a future table alive. */
  type Key = nat

  /** Identity of a table living in the Lua heap. */
  type TableRef = nat

  /** Identity of one sandboxed run (one `SandboxState` Arc). */
  type RunId = nat

  datatype Value =
    | Bool(b: bool)
    | Str(s: string)
    | Table(table: TableRef)
    | SandboxUserData(run: RunId)

  /** Names of the future table's resolution functions. */
  const HandleResolve: string := "__handle_resolve"
  const HandleReject: string := "__handle_reject"

  /** Names of the global tables holding the two kinds of entry points. */
  const SandboxTable: string := "sandbox"
  const BotTable: string := "bot"

  /** Every call the host makes into the interpreter that can raise an error. */
  datatype Call =
    | CallThink(table: string)                                  // `<table>.think()`, lookup included
    | NewString(text: string)                                   // `create_string`
    | GetHandler(future: TableRef, name: string)                // `future.get(name)`
    | InvokeHandler(future: TableRef, name: string, args: seq<Value>)
    | InvokeAsyncCallback(args: seq<Value>)                     // `sandbox.async_callback(...)`
    | CallRustFuture                                            // `async.__RustFuture()`
    | LookupRun                                                 // `sandbox.run` lookup
    | InvokeRun(run: RunId, source: string)                     // `sandbox.run(state, source)`

  datatype Reply = Raised(message: string) | Returned(value: Value)

  /** The interpreter's behaviour: the reply it gives to each call. */
  type Interp = Call -> Reply
}

=== FILE: results.dfy ===
/** Failure-carrying datatypes shared by every module of the model. */
module Results {

  /** An optional value, standing for Rust's `Option`. */
  datatype Option<+T> = None | Some(value: T)

  /** The outcome of a fallible step that produces no value (Rust's `Result<()>`). */
  datatype Outcome<+E> = Pass | Fail(error: E)

  /** A value or an error (Rust's `Result<T, E>`). */
  datatype Result<+T, +E> = Ok(value: T) | Err(error: E)
}

=== FILE: runtime.dfy ===
/**
 * `LuaState`: one interpreter plus the host-side state around it.
 *
 * The interpreter's registry is a map from registry keys to the future tables
 * they keep alive. The async channel is a FIFO `queue` of callback
 * descriptors. Tasks spawned on the async executor whose work has not finished
 * yet are kept in `timers`; `Fire` is the environment step that lets one of
 * them finish and enqueue its descriptor. `think` is modelled by `Think`,
 * which returns the calls it made into the interpreter, in order.
 */
module Runtime {
  import opened Results
  import opened Lua
  import Sandbox

  /** What a completion closure computed: `Ok(vals)` or `Err(msg)`. */
  datatype Completion = Yields(values: seq<Value>) | Rejects(message: string)

  /** `LuaAsyncCallback`: the future's key, the sandbox run if any, and the completion. */
  datatype Descriptor = Descriptor(key: Key, state: Option<RunId>, completion: Completion)

  datatype Runtime = Runtime(
    sandboxed: bool,
    registry: map<Key, TableRef>,
    nextKey: Key,
    timers: seq<Descriptor>,
    queue: seq<Descriptor>,
    ambient: Option<RunId>,          // the `__SANDBOX_STATE` named registry value
    runs: map<RunId, Sandbox.Run>,
    nextRun: RunId)

  /** A runtime right after `create_state`: nothing registered, nothing pending. */
  function Empty(sandboxed: bool): Runtime
  {
    Runtime(sandboxed, map[], 0, [], [], None, map[], 0)
  }

  /** The error for a descriptor whose key no longer names a registry value. */
  const MissingRegistryValue: string := "registry value not found"

  /** The values handed to the resolution function for a completion. */
  function Values(c: Completion): seq<Value>
  {
    match c
    case Yields(vs) => vs
    case Rejects(m) => [Str(m)]
  }

  /** The future's function that a completion selects. */
  function HandlerName(c: Completion): string
  {
    if c.Yields? then HandleResolve else HandleReject
  }

  /** The global table whose `think` function a tick calls first. */
  function ThinkTable(sandboxed: bool): string
  {
    if sandboxed then SandboxTable else BotTable
  }

  function Attempt(interp: Interp, c: Call): Outcome<string>
  {
    match interp(c)
    case Raised(m) => Fail(m)
    case Returned(_) => Pass
  }

  predicate Invokes(c: Call)
  {
    c.InvokeHandler? || c.InvokeAsyncCallback?
  }

  /** The interpreter calls made while resolving one descriptor, and how it ended. */
  datatype Resolution = Resolution(calls: seq<Call>, outcome: Outcome<string>)

  /**
   * Resolving one popped descriptor: turn the completion into a flag and a
   * value list, fetch the future from the registry, fetch its resolve or
   * reject function, then either call `sandbox.async_callback` (sandboxed
   * runtime with a run attached), call nothing (sandboxed runtime without a
   * run), or call the fetched function directly (trusted runtime).
   */
  function Resolve(rt: Runtime, d: Descriptor, interp: Interp): (r: Resolution)
    ensures r.outcome.Pass? ==> d.key in rt.registry
    ensures r.outcome.Pass? ==> forall c :: c in r.calls ==> interp(c).Returned?
    ensures r.outcome.Fail? ==>
              (d.key !in rt.registry && r.outcome.error == MissingRegistryValue)
              || (|r.calls| > 0 && interp(r.calls[|r.calls| - 1]) == Raised(r.outcome.error))
    ensures forall c :: c in r.calls && c.GetHandler? ==>
              d.key in rt.registry && c == GetHandler(rt.registry[d.key], HandlerName(d.completion))
    ensures forall c :: c in r.calls && c.InvokeHandler? ==>
              !rt.sandboxed && d.key in rt.registry
              && c == InvokeHandler(rt.registry[d.key], HandlerName(d.completion),
                                    [Table(rt.registry[d.key]), Bool(true)] + Values(d.completion))
    ensures forall c :: c in r.calls && c.InvokeAsyncCallback? ==>
              rt.sandboxed && d.state.Some? && d.key in rt.registry
              && c.args == [SandboxUserData(d.state.value), Table(rt.registry[d.key]), Bool(true)] + Values(d.completion)
    ensures forall c :: c in r.calls ==> !c.CallThink?
    ensures r.outcome.Pass? && rt.sandboxed && d.state.None? ==> forall c :: c in r.calls ==> !Invokes(c)
    ensures r.outcome.Pass? && !(rt.sandboxed && d.state.None?) ==> |r.calls| > 0 && Invokes(r.calls[|r.calls| - 1])
    ensures d.key in rt.registry && (forall c :: interp(c).Returned?) ==> r.outcome.Pass?
    ensures d.completion.Rejects? ==> |r.calls| > 0 && r.calls[0] == NewString(d.completion.message)
    ensures d.key in rt.registry && !(d.completion.Rejects? && interp(NewString(d.completion.message)).Raised?) ==>
              GetHandler(rt.registry[d.key], HandlerName(d.completion)) in r.calls
  {
    var pre := if d.completion.Yields? then [] else [NewString(d.completion.message)];
    if d.completion.Rejects? && interp(NewString(d.completion.message)).Raised? then
      Resolution(pre, Attempt(interp, NewString(d.completion.message)))
    else if d.key !in rt.registry then
      Resolution(pre, Fail(MissingRegistryValue))
    else
      var future := rt.registry[d.key];
      var name := HandlerName(d.completion);
      var get := GetHandler(future, name);
      if interp(get).Raised? then
        Resolution(pre + [get], Attempt(interp, get))
      else if rt.sandboxed then
        match d.state
        case None => Resolution(pre + [get], Pass)
        case Some(run) =>
          var call := InvokeAsyncCallback([SandboxUserData(run), Table(future), Bool(true)] + Values(d.completion));
          Resolution(pre + [get, call], Attempt(interp, call))
      else
        var call := InvokeHandler(future, name, [Table(future), Bool(true)] + Values(d.completion));
        Resolution(pre + [get, call], Attempt(interp, call))
  }

  /**
   * On the sandbox route the success flag is always `true`, so a rejection
   * with message `m` reaches `sandbox.async_callback` exactly as a resolution
   * with the single value `m` does: the script cannot tell them apart.
   */
  lemma SandboxedRejectLooksResolved(rt: Runtime, key: Key, run: RunId, m: string, interp: Interp)
    requires rt.sandboxed && key in rt.registry
    requires forall c :: interp(c).Returned?
    ensures
      var rejected := Resolve(rt, Descriptor(key, Some(run), Rejects(m)), interp).calls;
      var resolved := Resolve(rt, Descriptor(key, Some(run), Yields([Str(m)])), interp).calls;
      && |rejected| > 0 && |resolved| > 0
      && rejected[|rejected| - 1] == resolved[|resolved| - 1]
      && rejected[|rejected| - 1].InvokeAsyncCallback?
  {
    var fut := rt.registry[key];
    var call := InvokeAsyncCallback([SandboxUserData(run), Table(fut), Bool(true)] + [Str(m)]);
    assert Resolve(rt, Descriptor(key, Some(run), Rejects(m)), interp).calls
      == [NewString(m), GetHandler(fut, HandleReject), call];
    assert Resolve(rt, Descriptor(key, Some(run), Yields([Str(m)])), interp).calls
      == [GetHandler(fut, HandleResolve), call];
  }

  /** The registry keys the descriptors hold. */
  function KeysOf(ds: seq<Descriptor>): set<Key>
    decreases |ds|
  {
    if |ds| == 0 then {} else {ds[0].key} + KeysOf(ds[1..])
  }

  /** No call in `calls` raised. */
  predicate AllReturned(interp: Interp, calls: seq<Call>)
  {
    forall c :: c in calls ==> interp(c).Returned?
  }

  /**
   * A failure is explained: either a future was missing from the registry,
   * or the last call made raised, and the failure carries its message.
   */
  predicate FailureExplained(interp: Interp, calls: seq<Call>, outcome: Outcome<string>)
  {
    outcome.Fail? ==>
      outcome.error == MissingRegistryValue
      || (|calls| > 0 && interp(calls[|calls| - 1]) == Raised(outcome.error))
  }

  /** The result of a tick: the new state, the calls made, how many descriptors were popped, how it ended. */
  datatype Tick = Tick(rt: Runtime, calls: seq<Call>, popped: nat, outcome: Outcome<string>)

  /** Only the queue and the registry change during a tick. */
  predicate SameOutsideDrain(a: Runtime, b: Runtime)
  {
    a == b.(queue := a.queue, registry := a.registry)
  }

  /** How many popped descriptors had their key released: all of them, or all but the one that failed. */
  function Released(t: Tick): nat
  {
    if t.outcome.Pass? || t.popped == 0 then t.popped else t.popped - 1
  }

  /**
   * The drain loop: pop descriptors oldest first, resolve each one and then
   * drop its registry key. It stops only when the queue is empty or a
   * resolution fails; then the failed descriptor is gone from the queue, its
   * key stays registered, and every later descriptor stays queued.
   */
  function Drain(rt: Runtime, interp: Interp): (r: Tick)
    ensures r.popped <= |rt.queue|
    ensures r.rt.queue == rt.queue[r.popped..]
    ensures r.outcome.Pass? ==> r.popped == |rt.queue|
    ensures r.outcome.Fail? ==> 1 <= r.popped
    ensures r.rt.registry == rt.registry - KeysOf(rt.queue[..Released(r)])
    ensures SameOutsideDrain(rt, r.rt)
    ensures forall c :: c in r.calls ==> !c.CallThink?
    ensures r.outcome.Pass? ==> AllReturned(interp, r.calls)
    ensures FailureExplained(interp, r.calls, r.outcome)
    decreases |rt.queue|
  {
    if |rt.queue| == 0 then
      Tick(rt, [], 0, Pass)
    else
      var d := rt.queue[0];
      var popped := rt.(queue := rt.queue[1..]);
      var res := Resolve(popped, d, interp);
      if res.outcome.Fail? then
        Tick(popped, res.calls, 1, res.outcome)
      else
        var rest := Drain(popped.(registry := popped.registry - {d.key}), interp);
        var t := Tick(rest.rt, res.calls + rest.calls, rest.popped + 1, rest.outcome);
        DrainStep(rt.queue, rt.registry, rest, t);
        NoThinkConcat(res.calls, rest.calls);
        ReturnedConcat(res.calls, rest.calls, rest.outcome, interp);
        t
  }

  lemma NoThinkConcat(a: seq<Call>, b: seq<Call>)
    requires forall c :: c in a ==> !c.CallThink?
    requires forall c :: c in b ==> !c.CallThink?
    ensures forall c :: c in a + b ==> !c.CallThink?
  {
  }

  /** A resolved head followed by the rest of the drain: what the rest says about its calls holds of them all. */
  lemma ReturnedConcat(a: seq<Call>, b: seq<Call>, outcome: Outcome<string>, interp: Interp)
    requires AllReturned(interp, a)
    requires outcome.Pass? ==> AllReturned(interp, b)
    requires FailureExplained(interp, b, outcome)
    ensures outcome.Pass? ==> AllReturned(interp, a + b)
    ensures FailureExplained(interp, a + b, outcome)
  {
    if outcome.Fail? && outcome.error != MissingRegistryValue {
      assert (a + b)[|a + b| - 1] == b[|b| - 1];
    }
  }

  /**
   * Any error stops the drain at once: when the head's resolution fails, the
   * drain ends with that error after popping only the head, and the head's
   * key stays registered.
   */
  lemma DrainStopsAtFailure(rt: Runtime, interp: Interp)
    requires |rt.queue| > 0
    requires Resolve(rt.(queue := rt.queue[1..]), rt.queue[0], interp).outcome.Fail?
    ensures
      var r := Drain(rt, interp);
      && r.outcome == Resolve(rt.(queue := rt.queue[1..]), rt.queue[0], interp).outcome
      && r.calls == Resolve(rt.(queue := rt.queue[1..]), rt.queue[0], interp).calls
      && r.popped == 1
      && r.rt.queue == rt.queue[1..]
      && r.rt.registry == rt.registry
  {
  }

  /** One more drained head: the queue and the released keys both extend by one descriptor. */
  lemma DrainStep(q: seq<Descriptor>, registry: map<Key, TableRef>, rest: Tick, t: Tick)
    requires 0 < |q| && rest.popped <= |q| - 1
    requires rest.outcome.Fail? ==> 1 <= rest.popped
    requires rest.rt.queue == q[1..][rest.popped..]
    requires rest.rt.registry == (registry - {q[0].key}) - KeysOf(q[1..][..Released(rest)])
    requires t.rt == rest.rt && t.popped == rest.popped + 1 && t.outcome == rest.outcome
    ensures t.rt.queue == q[t.popped..]
    ensures t.rt.registry == registry - KeysOf(q[..Released(t)])
  {
    var n := Released(rest);
    assert Released(t) == n + 1;
    assert q[1..][rest.popped..] == q[rest.popped + 1..];
    assert q[..n + 1][1..] == q[1..][..n];
    assert KeysOf(q[..n + 1]) == {q[0].key} + KeysOf(q[1..][..n]);
  }

  /** Resolving a descriptor reads the registry and the mode, never the queue. */
  lemma ResolveIgnoresQueue(rt: Runtime, q: seq<Descriptor>, d: Descriptor, interp: Interp)
    ensures Resolve(rt.(queue := q), d, interp) == Resolve(rt, d, interp)
  {
  }

  lemma HeadOfConcat(q1: seq<Descriptor>, q2: seq<Descriptor>)
    requires |q1| > 0
    ensures (q1 + q2)[0] == q1[0] && (q1 + q2)[1..] == q1[1..] + q2
  {
  }

  lemma ConcatAssoc(a: seq<Call>, b: seq<Call>, c: seq<Call>)
    ensures (a + b) + c == a + (b + c)
  {
  }

  /** A drain whose head resolves: the head's calls, then the drain of the rest with the head's key dropped. */
  lemma DrainCons(rt: Runtime, interp: Interp)
    requires |rt.queue| > 0
    requires Resolve(rt.(queue := rt.queue[1..]), rt.queue[0], interp).outcome.Pass?
    ensures
      var popped := rt.(queue := rt.queue[1..]);
      var rest := Drain(popped.(registry := popped.registry - {rt.queue[0].key}), interp);
      Drain(rt, interp)
        == Tick(rest.rt, Resolve(popped, rt.queue[0], interp).calls + rest.calls, rest.popped + 1, rest.outcome)
  {
  }

  /**
   * The drain is first in, first out: when draining `q1` alone succeeds,
   * draining `q1 + q2` resolves all of `q1` first, exactly as before, and then
   * carries on with `q2` from the state `q1` left behind.
   */
  lemma {:induction false} DrainSplit(rt: Runtime, q1: seq<Descriptor>, q2: seq<Descriptor>, interp: Interp)
    requires Drain(rt.(queue := q1), interp).outcome.Pass?
    ensures
      var first := Drain(rt.(queue := q1), interp);
      var second := Drain(first.rt.(queue := q2), interp);
      Drain(rt.(queue := q1 + q2), interp) == Tick(second.rt, first.calls + second.calls, |q1| + second.popped, second.outcome)
    decreases |q1|
  {
    var first := Drain(rt.(queue := q1), interp);
    if |q1| == 0 {
      assert q1 + q2 == q2;
      assert first.rt.(queue := q2) == rt.(queue := q2);
      assert first.calls == [] && [] + Drain(rt.(queue := q2), interp).calls == Drain(rt.(queue := q2), interp).calls;
    } else {
      var d := q1[0];
      var p1 := rt.(queue := q1[1..]);
      var next1 := p1.(registry := p1.registry - {d.key});
      HeadOfConcat(q1, q2);
      var p2 := rt.(queue := q1[1..] + q2);
      ResolveIgnoresQueue(p1, q1[1..] + q2, d, interp);
      var res := Resolve(p1, d, interp);
      assert res.outcome.Pass?;
      DrainCons(rt.(queue := q1), interp);
      DrainCons(rt.(queue := q1 + q2), interp);
      var rest1 := Drain(next1, interp);
      assert first == Tick(rest1.rt, res.calls + rest1.calls, rest1.popped + 1, rest1.outcome);
      assert next1 == next1.(queue := q1[1..]);
      DrainSplit(next1, q1[1..], q2, interp);
      var second := Drain(first.rt.(queue := q2), interp);
      ConcatAssoc(res.calls, rest1.calls, second.calls);
    }
  }

  /**
   * `LuaState::think`: call the mode's `think` entry point, then drain the
   * async queue. An error from the entry point drains nothing.
   */
  function Think(rt: Runtime, interp: Interp): (r: Tick)
    ensures |r.calls| > 0 && r.calls[0] == CallThink(ThinkTable(rt.sandboxed))
    ensures forall i :: 1 <= i < |r.calls| ==> !r.calls[i].CallThink?
    ensures interp(r.calls[0]).Raised? ==>
              r.rt == rt && r.calls == [r.calls[0]] && r.popped == 0 && r.outcome == Fail(interp(r.calls[0]).message)
    ensures r.popped <= |rt.queue| && r.rt.queue == rt.queue[r.popped..]
    ensures r.outcome.Pass? ==> r.rt.queue == []
    ensures r.rt.registry == rt.registry - KeysOf(rt.queue[..Released(r)])
    ensures SameOutsideDrain(rt, r.rt)
    ensures interp(r.calls[0]).Returned? ==>
              var drained := Drain(rt, interp);
              r.calls[1..] == drained.calls && r.outcome == drained.outcome && r.popped == drained.popped
    ensures r.outcome.Pass? ==> AllReturned(interp, r.calls)
    ensures FailureExplained(interp, r.calls, r.outcome)
  {
    var enter := CallThink(ThinkTable(rt.sandboxed));
    if interp(enter).Raised? then
      Tick(rt, [enter], 0, Attempt(interp, enter))
    else
      var drained := Drain(rt, interp);
      assert forall i :: 1 <= i < |[enter] + drained.calls| ==> ([enter] + drained.calls)[i] in drained.calls;
      Tick(drained.rt, [enter] + drained.calls, drained.popped, drained.outcome)
  }

  /** A spawned task finishes: its descriptor joins the back of the queue. */
  function Fire(rt: Runtime, i: nat): (r: Runtime)
    requires i < |rt.timers|
    ensures r.queue == rt.queue + [rt.timers[i]]
    ensures r.timers == rt.timers[..i] + rt.timers[i + 1..]
    ensures r.registry == rt.registry && r.nextKey == rt.nextKey && r.ambient == rt.ambient
  {
    rt.(queue := rt.queue + [rt.timers[i]], timers := rt.timers[..i] + rt.timers[i + 1..])
  }

  /** The result of `run_sandboxed`: the new state, and the run or the error. */
  datatype Launch = Launch(rt: Runtime, result: Result<RunId, string>)

  /**
   * `LuaState::run_sandboxed`: look up `sandbox.run`, create a run with fresh
   * quotas, install it as the ambient sandbox state, and call `sandbox.run`.
   * The run stays installed even when the call raises, but the host's
   * receiver is dropped with the error, so the run's later messages are lost.
   */
  function RunSandboxed(rt: Runtime, source: string, interp: Interp): (r: Launch)
    ensures interp(LookupRun).Raised? ==> r.rt == rt && r.result == Err(interp(LookupRun).message)
    ensures interp(LookupRun).Returned? ==>
              var id := rt.nextRun;
              && id in r.rt.runs
              && r.rt.runs == rt.runs[id := r.rt.runs[id]]
              && r.rt.runs[id].instructionsRun == 0
              && r.rt.runs[id].limits == Sandbox.Limits(10, 2000, 2)
              && r.rt.runs[id].delivered == []
              && (r.rt.runs[id].receiverOpen <==> r.result.Ok?)
              && r.rt.ambient == Some(id)
              && r.rt.nextRun > id
              && (r.result.Ok? <==> interp(InvokeRun(id, source)).Returned?)
              && (r.result.Ok? ==> r.result.value == id)
    ensures r.rt.registry == rt.registry && r.rt.queue == rt.queue && r.rt.timers == rt.timers
            && r.rt.nextKey == rt.nextKey && r.rt.sandboxed == rt.sandboxed
  {
    match interp(LookupRun)
    case Raised(m) => Launch(rt, Err(m))
    case Returned(_) =>
      var id := rt.nextRun;
      var installed := rt.(runs := rt.runs[id := Sandbox.Fresh()], nextRun := id + 1, ambient := Some(id));
      match interp(InvokeRun(id, source))
      case Raised(m) =>
        // The early return drops the host's receiver; the run stays installed.
        Launch(installed.(runs := rt.runs[id := Sandbox.DropReceiver(Sandbox.Fresh())]), Err(m))
      case Returned(_) => Launch(installed, Ok(id))
  }

  /** The sandbox object's `set_state`: make this run the ambient sandbox state. */
  function SetState(rt: Runtime, run: RunId): (r: Runtime)
    ensures r.ambient == Some(run)
    ensures r == rt.(ambient := r.ambient)
  {
    rt.(ambient := Some(run))
  }
}

=== FILE: sandbox.dfy ===
/**
 * The state of one sandboxed run (`SandboxState` / `SandboxStateInner`) and
 * the methods the sandbox object exposes to Lua: `print`, `error`,
 * `get_instructions_run`, `set_instructions_run` and `terminate`, plus the
 * `SandboxLimits` accessors.
 *
 * The run's message channel is modelled by the messages the host has received
 * so far (`delivered`) and whether the host still holds the receiver: a send
 * to a dropped receiver fails, and every method ignores that failure.
 */
module Sandbox {
  import opened Results

  /** Rust's `u64`; the atomics hold values of this type. */
  type U64 = x: int | 0 <= x < 0x1_0000_0000_0000_0000

  /** The closed set of reasons a script may give for terminating. */
  datatype TerminationReason = ExecutionQuota

  /** `SandboxMsg`: what a run reports to its host. */
  datatype Message = Out(text: string) | Error(text: string) | Terminated(reason: TerminationReason)

  /** `SandboxLimits`: the quota counters of a run. */
  datatype Limits = Limits(linesLeft: U64, charactersLeft: U64, httpCallsLeft: U64)

  datatype Run = Run(instructionsRun: U64, limits: Limits, delivered: seq<Message>, receiverOpen: bool)

  /** The quotas a fresh run starts with. */
  const InitialLines: U64 := 10
  const InitialCharacters: U64 := 2000
  const InitialHttpCalls: U64 := 2

  /** The run `run_sandboxed` creates: nothing executed, full quotas, an open and empty channel. */
  function Fresh(): Run
  {
    Run(0, Limits(InitialLines, InitialCharacters, InitialHttpCalls), [], true)
  }

  /** `sender.send(m).ok()`: the message reaches the host only while it holds the receiver. */
  function Send(run: Run, m: Message): Run
  {
    if run.receiverOpen then run.(delivered := run.delivered + [m]) else run
  }

  /** The host drops the run's receiver; later sends fail. */
  function DropReceiver(run: Run): (r: Run)
    ensures !r.receiverOpen
    ensures r.delivered == run.delivered && r.limits == run.limits && r.instructionsRun == run.instructionsRun
  {
    run.(receiverOpen := false)
  }

  /** `print(value)`: emits `Out(value)`; never fails, even when the send does. */
  function Print(run: Run, value: string): (r: Run)
    ensures run.receiverOpen ==> r.delivered == run.delivered + [Out(value)]
    ensures !run.receiverOpen ==> r.delivered == run.delivered
    ensures r.instructionsRun == run.instructionsRun && r.limits == run.limits && r.receiverOpen == run.receiverOpen
  {
    Send(run, Out(value))
  }

  /** `error(value)`: emits `Error(value)`; never fails, even when the send does. */
  function ErrorMessage(run: Run, value: string): (r: Run)
    ensures run.receiverOpen ==> r.delivered == run.delivered + [Error(value)]
    ensures !run.receiverOpen ==> r.delivered == run.delivered
    ensures r.instructionsRun == run.instructionsRun && r.limits == run.limits && r.receiverOpen == run.receiverOpen
  {
    Send(run, Error(value))
  }

  function GetInstructionsRun(run: Run): U64
  {
    run.instructionsRun
  }

  /** `set_instructions_run(value)`: a later `get_instructions_run` reads `value`; nothing is emitted. */
  function SetInstructionsRun(run: Run, value: U64): (r: Run)
    ensures GetInstructionsRun(r) == value
    ensures r.delivered == run.delivered && r.limits == run.limits && r.receiverOpen == run.receiverOpen
  {
    run.(instructionsRun := value)
  }

  /** The text a script passes to `terminate` for each reason. */
  function ReasonName(reason: TerminationReason): string
  {
    match reason
    case ExecutionQuota => "exec"
  }

  /** The closed-enumeration parser behind `terminate`. */
  function ParseReason(text: string): (r: Option<TerminationReason>)
    ensures r.Some? ==> ReasonName(r.value) == text
  {
    if text == "exec" then Some(ExecutionQuota) else None
  }

  lemma ParseReasonRoundTrip(reason: TerminationReason)
    ensures ParseReason(ReasonName(reason)) == Some(reason)
  {
    match reason
    case ExecutionQuota =>
      assert ReasonName(reason) == "exec";
  }

  /** The error `terminate` raises for a reason outside the enumeration. */
  function UnknownReason(text: string): string
  {
    "unknown termination reason: \"" + text + "\""
  }

  /**
   * `terminate(value)`: a known reason emits exactly one `Terminated` message;
   * any other text raises an error and emits nothing.
   */
  function Terminate(run: Run, value: string): (r: Result<Run, string>)
    ensures r.Ok? <==> value == "exec"
    ensures r.Ok? && run.receiverOpen ==> r.value.delivered == run.delivered + [Terminated(ExecutionQuota)]
    ensures r.Ok? && !run.receiverOpen ==> r.value.delivered == run.delivered
    ensures r.Ok? ==> r.value.instructionsRun == run.instructionsRun && r.value.limits == run.limits
                      && r.value.receiverOpen == run.receiverOpen
    ensures r.Err? ==> r.error == UnknownReason(value)
  {
    match ParseReason(value)
    case None => Err(UnknownReason(value))
    case Some(reason) => Ok(Send(run, Terminated(reason)))
  }

  /** `SandboxLimits::lines_left` / `set_lines_left`. */
  function LinesLeft(limits: Limits): U64
  {
    limits.linesLeft
  }

  function SetLinesLeft(limits: Limits, value: U64): (r: Limits)
    ensures LinesLeft(r) == value
    ensures CharactersLeft(r) == CharactersLeft(limits) && r.httpCallsLeft == limits.httpCallsLeft
  {
    limits.(linesLeft := value)
  }

  /** `SandboxLimits::characters_left` / `set_characters_left`. */
  function CharactersLeft(limits: Limits): U64
  {
    limits.charactersLeft
  }

  function SetCharactersLeft(limits: Limits, value: U64): (r: Limits)
    ensures CharactersLeft(r) == value
    ensures LinesLeft(r) == LinesLeft(limits) && r.httpCallsLeft == limits.httpCallsLeft
  {
    limits.(charactersLeft := value)
  }

  /** One call a script makes on its sandbox object. */
  datatype Op =
    | PrintOp(text: string)
    | ErrorOp(text: string)
    | SetInstructionsOp(value: U64)
    | TerminateOp(reason: string)

  /**
   * The effect of one call on the run. An unknown termination reason raises an
   * error inside the script, which may catch it; the run itself is unchanged.
   */
  function ApplyOp(run: Run, op: Op): Run
  {
    match op
    case PrintOp(t) => Print(run, t)
    case ErrorOp(t) => ErrorMessage(run, t)
    case SetInstructionsOp(v) => SetInstructionsRun(run, v)
    case TerminateOp(reason) =>
      match Terminate(run, reason)
      case Ok(next) => next
      case Err(_) => run
  }

  /** The calls of a script, in order. */
  function Apply(run: Run, ops: seq<Op>): Run
    decreases |ops|
  {
    if |ops| == 0 then run else Apply(ApplyOp(run, ops[0]), ops[1..])
  }

  /** The messages a call asks to send, independently of the channel. */
  function Requested(op: Op): seq<Message>
  {
    match op
    case PrintOp(t) => [Out(t)]
    case ErrorOp(t) => [Error(t)]
    case SetInstructionsOp(_) => []
    case TerminateOp(reason) =>
      match ParseReason(reason)
      case Some(why) => [Terminated(why)]
      case None => []
  }

  function RequestedAll(ops: seq<Op>): seq<Message>
    decreases |ops|
  {
    if |ops| == 0 then [] else Requested(ops[0]) + RequestedAll(ops[1..])
  }

  /** The value of the last `set_instructions_run` in `ops`, or `current` when there is none. */
  function LastSet(ops: seq<Op>, current: U64): U64
    decreases |ops|
  {
    if |ops| == 0 then current
    else LastSet(ops[1..], if ops[0].SetInstructionsOp? then ops[0].value else current)
  }

  /** While the host holds the receiver, it receives exactly the requested messages, in call order. */
  lemma {:induction false} ApplyDeliversRequested(run: Run, ops: seq<Op>)
    requires run.receiverOpen
    ensures Apply(run, ops).delivered == run.delivered + RequestedAll(ops)
    ensures Apply(run, ops).receiverOpen
    decreases |ops|
  {
    if |ops| > 0 {
      var next := ApplyOp(run, ops[0]);
      assert next.delivered == run.delivered + Requested(ops[0]);
      ApplyDeliversRequested(next, ops[1..]);
    }
  }

  /** Once the receiver is dropped nothing more is delivered, and no call fails because of it. */
  lemma {:induction false} ApplyAfterDropDeliversNothing(run: Run, ops: seq<Op>)
    requires !run.receiverOpen
    ensures Apply(run, ops).delivered == run.delivered
    decreases |ops|
  {
    if |ops| > 0 {
      ApplyAfterDropDeliversNothing(ApplyOp(run, ops[0]), ops[1..]);
    }
  }

  /** None of the sandbox object's methods touches the quota counters, and the counter reads the last value set. */
  lemma {:induction false} ApplyCounters(run: Run, ops: seq<Op>)
    ensures Apply(run, ops).limits == run.limits
    ensures GetInstructionsRun(Apply(run, ops)) == LastSet(ops, run.instructionsRun)
    decreases |ops|
  {
    if |ops| > 0 {
      ApplyCounters(ApplyOp(run, ops[0]), ops[1..]);
    }
  }
}

=== FILE: settings.dfy ===
/**
 * `Setting<T>`: a named configuration value with a validated default and two
 * caches of overrides, one per channel and one per server. The value types
 * `bool` and `String` supply parsing and validation through `SettingValue`.
 */
module Settings {
  import opened Results
  import opened Text

  type ChannelId = nat
  type ServerId = nat

  /** `SettingFlags`, a `u8` bit set. */
  type Flags = bv8

  const ServerOverride: Flags := 1

  /** `SettingFlags::contains`. */
  predicate Contains(flags: Flags, flag: Flags)
  {
    flags & flag == flag
  }

  datatype SettingType = BoolType

  datatype SettingError =
    | UnexpectedInput(expected: SettingType, input: string)
    | ExceededMaxLength(max: nat, length: nat)

  /**
   * A `SettingValue` implementation for values `T` with parameters `P`:
   * `is_valid` checks a value, `set_value` turns user input into a value.
   */
  datatype ValueType<!T, !P> = ValueType(
    isValid: (T, P) -> Outcome<SettingError>,
    parse: (string, P) -> Result<T, SettingError>)

  datatype Setting<T, P> = Setting(
    name: string,
    flags: Flags,
    help: string,
    parameters: P,
    default: T,
    channelValues: map<ChannelId, T>,
    serverValues: map<ServerId, T>)

  datatype SettingContext = Channel(channel: ChannelId) | Server(server: ServerId)

  /** `Setting::create`: the default must pass the type's validation; both caches start empty. */
  function Create<T(==), P(==)>(vt: ValueType<T, P>, name: string, default: T, parameters: P, flags: Flags, help: string)
    : (r: Result<Setting<T, P>, SettingError>)
    ensures r.Ok? <==> vt.isValid(default, parameters).Pass?
    ensures r.Err? ==> r.error == vt.isValid(default, parameters).error
    ensures r.Ok? ==> && r.value.default == default && r.value.parameters == parameters
                      && r.value.flags == flags && r.value.name == name && r.value.help == help
                      && r.value.channelValues == map[] && r.value.serverValues == map[]
  {
    match vt.isValid(default, parameters)
    case Fail(e) => Err(e)
    case Pass => Ok(Setting(name, flags, help, parameters, default, map[], map[]))
  }

  /** `get_channel_value`: the cached value; the database read behind a miss always finds nothing. */
  function ChannelValue<T, P>(s: Setting<T, P>, channel: ChannelId): Option<T>
  {
    if channel in s.channelValues then Some(s.channelValues[channel]) else None
  }

  /** `get_server_value`: the cached value; the database read behind a miss always finds nothing. */
  function ServerValue<T, P>(s: Setting<T, P>, server: ServerId): Option<T>
  {
    if server in s.serverValues then Some(s.serverValues[server]) else None
  }

  /**
   * `Setting::value`: with `SERVER_OVERRIDE` a server value beats a channel
   * value; without it a channel value beats a server value; with neither
   * the default applies.
   */
  function Value<T(==), P>(s: Setting<T, P>, server: ServerId, channel: ChannelId): (r: T)
    ensures r == s.default || (server in s.serverValues && r == s.serverValues[server])
                           || (channel in s.channelValues && r == s.channelValues[channel])
    ensures Contains(s.flags, ServerOverride) && server in s.serverValues ==> r == s.serverValues[server]
    ensures !Contains(s.flags, ServerOverride) && channel in s.channelValues ==> r == s.channelValues[channel]
    ensures server !in s.serverValues && channel in s.channelValues ==> r == s.channelValues[channel]
    ensures channel !in s.channelValues && server in s.serverValues ==> r == s.serverValues[server]
    ensures server !in s.serverValues && channel !in s.channelValues ==> r == s.default
  {
    if Contains(s.flags, ServerOverride) then
      match ServerValue(s, server)
      case Some(v) => v
      case None =>
        match ChannelValue(s, channel)
        case Some(v) => v
        case None => s.default
    else
      match ChannelValue(s, channel)
      case Some(v) => v
      case None =>
        match ServerValue(s, server)
        case Some(v) => v
        case None => s.default
  }

  /** `Setting::flush_cache`: both caches emptied, nothing else touched. */
  function FlushCache<T, P>(s: Setting<T, P>): (r: Setting<T, P>)
    ensures r.channelValues == map[] && r.serverValues == map[]
    ensures r.name == s.name && r.flags == s.flags && r.help == s.help
            && r.parameters == s.parameters && r.default == s.default
  {
    s.(channelValues := map[], serverValues := map[])
  }

  /** The setting after `set_value`, and whether it succeeded. */
  datatype Update<T, P> = Update(setting: Setting<T, P>, outcome: Outcome<SettingError>)

  /**
   * `Setting::set_value`: parse the input with the type's `set_value`; on
   * success store the value in the cache the context names, on failure
   * change nothing.
   */
  function SetValue<T(==), P(==)>(vt: ValueType<T, P>, s: Setting<T, P>, ctx: SettingContext, input: string)
    : (r: Update<T, P>)
    ensures vt.parse(input, s.parameters).Err? ==>
              r.setting == s && r.outcome == Fail(vt.parse(input, s.parameters).error)
    ensures vt.parse(input, s.parameters).Ok? ==>
              var v := vt.parse(input, s.parameters).value;
              && r.outcome == Pass
              && r.setting.default == s.default && r.setting.flags == s.flags && r.setting.parameters == s.parameters
              && r.setting.name == s.name && r.setting.help == s.help
              && (ctx.Channel? ==> r.setting.channelValues == s.channelValues[ctx.channel := v]
                                   && r.setting.serverValues == s.serverValues)
              && (ctx.Server? ==> r.setting.serverValues == s.serverValues[ctx.server := v]
                                  && r.setting.channelValues == s.channelValues)
  {
    match vt.parse(input, s.parameters)
    case Err(e) => Update(s, Fail(e))
    case Ok(v) =>
      match ctx
      case Channel(c) => Update(s.(channelValues := s.channelValues[c := v]), Pass)
      case Server(sv) => Update(s.(serverValues := s.serverValues[sv := v]), Pass)
  }

  /** The override flag only decides between a channel value and a server value that are both present. */
  lemma FlagMattersOnlyWhenBothSet<T, P>(s: Setting<T, P>, flags: Flags, server: ServerId, channel: ChannelId)
    requires !(server in s.serverValues && channel in s.channelValues)
    ensures Value(s.(flags := flags), server, channel) == Value(s, server, channel)
  {
  }

  /** After a flush every server/channel pair reads the default. */
  lemma FlushedReadsDefault<T, P>(s: Setting<T, P>, server: ServerId, channel: ChannelId)
    ensures Value(FlushCache(s), server, channel) == s.default
  {
  }

  /**
   * A channel value just stored is what that channel reads, unless the
   * setting lets a cached server value override it.
   */
  lemma SetChannelThenRead<T, P>(vt: ValueType<T, P>, s: Setting<T, P>, channel: ChannelId, input: string, server: ServerId)
    requires vt.parse(input, s.parameters).Ok?
    requires !Contains(s.flags, ServerOverride) || server !in s.serverValues
    ensures Value(SetValue(vt, s, Channel(channel), input).setting, server, channel) == vt.parse(input, s.parameters).value
  {
  }

  /**
   * A server value just stored is what every channel of that server reads
   * when the server overrides, and what channels without their own value read otherwise.
   */
  lemma SetServerThenRead<T, P>(vt: ValueType<T, P>, s: Setting<T, P>, server: ServerId, input: string, channel: ChannelId)
    requires vt.parse(input, s.parameters).Ok?
    requires Contains(s.flags, ServerOverride) || channel !in s.channelValues
    ensures Value(SetValue(vt, s, Server(server), input).setting, server, channel) == vt.parse(input, s.parameters).value
  {
  }

  // Setting value - bool

  datatype BoolParameters = BoolParameters

  /** The text `bool`'s `Display` writes. */
  function FormatBool(b: bool): string
  {
    if b then "true" else "false"
  }

  /**
   * `set_value` for `bool`: after trimming, the words `true` and `false`, or
   * a `u32` that is true when positive. The error carries the input as given,
   * untrimmed.
   */
  function ParseBool(input: string): (r: Result<bool, SettingError>)
    ensures r.Err? ==> r.error == UnexpectedInput(BoolType, input)
    ensures r.Ok? <==> Trim(input) == "true" || Trim(input) == "false" || ParseU32(Trim(input)).Some?
    ensures r.Ok? ==> Trim(input) == FormatBool(r.value) || ParseU32(Trim(input)).Some?
    ensures ParseU32(Trim(input)).Some? ==> r == Ok(ParseU32(Trim(input)).value > 0)
  {
    var trimmed := Trim(input);
    if trimmed == "true" then Ok(true)
    else if trimmed == "false" then Ok(false)
    else
      match ParseU32(trimmed)
      case Some(val) => Ok(val > 0)
      case None => Err(UnexpectedInput(BoolType, input))
  }

  /** Every `bool` value is valid; input goes through `ParseBool`. */
  function BoolValueType(): ValueType<bool, BoolParameters>
  {
    ValueType((v: bool, p: BoolParameters) => Pass, (input: string, p: BoolParameters) => ParseBool(input))
  }

  /** `bool` settings read back what `Display` writes. */
  lemma ParseBoolFormat(b: bool)
    ensures ParseBool(FormatBool(b)) == Ok(b)
  {
    TrimExact([], FormatBool(b), []);
    assert [] + FormatBool(b) + [] == FormatBool(b);
  }

  /** A number in `u32` range reads as true exactly when it is positive. */
  lemma ParseBoolNumber(n: nat)
    requires n <= U32Max
    ensures ParseBool(Decimal(n)) == Ok(n > 0)
  {
    ParseU32Decimal(n);
    TrimDecimal(n);
    assert Decimal(n) != "true" && Decimal(n) != "false";
  }

  /** A number past `u32` range is rejected rather than read as true. */
  lemma ParseBoolOverflow(n: nat)
    requires n > U32Max
    ensures ParseBool(Decimal(n)) == Err(UnexpectedInput(BoolType, Decimal(n)))
  {
    ParseU32Rejects(n, []);
    TrimDecimal(n);
    assert Decimal(n) != "true" && Decimal(n) != "false";
  }

  /** Surrounding whitespace never changes what a `bool` setting parses to; only the error's echo of the input differs. */
  lemma ParseBoolPadding(pre: string, x: string, post: string)
    requires AllWhitespace(pre) && AllWhitespace(post)
    ensures ParseBool(pre + x + post).Ok? <==> ParseBool(x).Ok?
    ensures ParseBool(x).Ok? ==> ParseBool(pre + x + post) == ParseBool(x)
  {
    TrimPadding(pre, x, post);
  }

  // Setting value - String

  datatype StringParameters = StringParameters(maxLen: Option<nat>)

  /** `is_valid` for `String`: the UTF-8 byte length must not exceed `max_len`, when one is set. */
  function StringIsValid(value: string, parameters: StringParameters): (r: Outcome<SettingError>)
    ensures r.Fail? <==> parameters.maxLen.Some? && Utf8Len(value) > parameters.maxLen.value
    ensures r.Fail? ==> r.error == ExceededMaxLength(parameters.maxLen.value, Utf8Len(value))
  {
    match parameters.maxLen
    case None => Pass
    case Some(maxLen) =>
      var len := Utf8Len(value);
      if len > maxLen then Fail(ExceededMaxLength(maxLen, len)) else Pass
  }

  /** `set_value` for `String`: the input itself, untrimmed, when it is valid. */
  function StringSetValue(input: string, parameters: StringParameters): (r: Result<string, SettingError>)
    ensures r.Ok? <==> StringIsValid(input, parameters).Pass?
    ensures r.Ok? ==> r.value == input
    ensures r.Err? ==> r.error == StringIsValid(input, parameters).error
  {
    match StringIsValid(input, parameters)
    case Fail(e) => Err(e)
    case Pass => Ok(input)
  }

  function StringValueType(): ValueType<string, StringParameters>
  {
    ValueType(StringIsValid, StringSetValue)
  }

  /**
   * The length limit counts bytes, not characters: more characters than the
   * limit is always too long, at most a quarter of the limit never is, and
   * for ASCII text the two counts agree.
   */
  lemma StringLimitBounds(value: string, maxLen: nat)
    ensures |value| > maxLen ==> StringIsValid(value, StringParameters(Some(maxLen))).Fail?
    ensures 4 * |value| <= maxLen ==> StringIsValid(value, StringParameters(Some(maxLen))).Pass?
    ensures IsAscii(value) ==> (StringIsValid(value, StringParameters(Some(maxLen))).Pass? <==> |value| <= maxLen)
  {
    Utf8LenBounds(value);
  }

  /** A one-character string over the limit of one byte: `é` is two bytes in UTF-8. */
  lemma StringLimitCountsBytes()
    ensures StringIsValid("\U{E9}", StringParameters(Some(1))) == Fail(ExceededMaxLength(1, 2))
  {
    assert Utf8Len("\U{E9}") == 2;
  }

  /** A `String` setting can be created exactly when its default fits the limit. */
  lemma CreateStringSetting(name: string, default: string, maxLen: Option<nat>, flags: Flags, help: string)
    ensures Create(StringValueType(), name, default, StringParameters(maxLen), flags, help).Ok?
            <==> (maxLen.None? || Utf8Len(default) <= maxLen.value)
  {
  }
}

=== FILE: text.dfy ===
/**
 * The string primitives the settings layer relies on: `str::trim`,
 * `u32::from_str` and `str::len` (a UTF-8 byte count).
 */
module Text {
  import opened Results

  /** `char::is_whitespace`: the characters with the Unicode White_Space property. */
  predicate IsWhitespace(c: char)
  {
    || c == ' '
    || ('\t' <= c <= '\r')
    || c == '\U{85}'
    || c == '\U{A0}'
    || c == '\U{1680}'
    || ('\U{2000}' <= c <= '\U{200A}')
    || c == '\U{2028}'
    || c == '\U{2029}'
    || c == '\U{202F}'
    || c == '\U{205F}'
    || c == '\U{3000}'
  }

  predicate AllWhitespace(s: string)
  {
    forall i :: 0 <= i < |s| ==> IsWhitespace(s[i])
  }

  /** The first position at or after `i` that does not hold whitespace (or the end). */
  function SkipForward(s: string, i: nat): (p: nat)
    requires i <= |s|
    ensures i <= p <= |s|
    ensures forall j :: i <= j < p ==> IsWhitespace(s[j])
    ensures p == |s| || !IsWhitespace(s[p])
    decreases |s| - i
  {
    if i < |s| && IsWhitespace(s[i]) then SkipForward(s, i + 1) else i
  }

  /** The last end position at or before `hi`, but not before `lo`, that follows a non-whitespace character. */
  function SkipBackward(s: string, lo: nat, hi: nat): (q: nat)
    requires lo <= hi <= |s|
    ensures lo <= q <= hi
    ensures forall j :: q <= j < hi ==> IsWhitespace(s[j])
    ensures q == lo || !IsWhitespace(s[q - 1])
    decreases hi
  {
    if lo < hi && IsWhitespace(s[hi - 1]) then SkipBackward(s, lo, hi - 1) else hi
  }

  /** A string with no whitespace at either end. */
  predicate Bare(m: string)
  {
    m == [] || (!IsWhitespace(m[0]) && !IsWhitespace(m[|m| - 1]))
  }

  /** `str::trim`: the slice of `s` left after dropping whitespace at both ends. */
  function Trim(s: string): (r: string)
    ensures Bare(r)
  {
    var a := SkipForward(s, 0);
    s[a..SkipBackward(s, a, |s|)]
  }

  /** `Trim(s)` is the slice `s[k..e]`, with only whitespace before and after it. */
  lemma TrimShape(s: string) returns (k: nat, e: nat)
    ensures k <= e <= |s| && Trim(s) == s[k..e]
    ensures AllWhitespace(s[..k]) && AllWhitespace(s[e..])
  {
    k := SkipForward(s, 0);
    e := SkipBackward(s, k, |s|);
    forall j | 0 <= j < k
      ensures IsWhitespace(s[..k][j])
    {
      assert s[..k][j] == s[j];
    }
    forall j | 0 <= j < |s| - e
      ensures IsWhitespace(s[e..][j])
    {
      assert s[e..][j] == s[e + j];
    }
  }

  lemma Regroup(pre: string, a: string, m: string, b: string, post: string)
    ensures pre + (a + m + b) + post == (pre + a) + m + (b + post)
  {
  }

  lemma Associate(a: string, b: string, c: string)
    ensures a + b + c == a + (b + c)
  {
  }

  lemma WhitespaceConcat(x: string, y: string)
    requires AllWhitespace(x) && AllWhitespace(y)
    ensures AllWhitespace(x + y)
  {
    forall j | 0 <= j < |x + y|
      ensures IsWhitespace((x + y)[j])
    {
      if j < |x| {
        assert (x + y)[j] == x[j];
      } else {
        assert (x + y)[j] == y[j - |x|];
      }
    }
  }

  lemma SliceThree(s: string, k: nat, e: nat)
    requires k <= e <= |s|
    ensures s == s[..k] + s[k..e] + s[e..]
  {
  }

  /** `SkipForward` stops at the first non-whitespace position. */
  lemma {:induction false} SkipForwardStops(s: string, i: nat, p: nat)
    requires i <= p <= |s|
    requires forall j :: i <= j < p ==> IsWhitespace(s[j])
    requires p == |s| || !IsWhitespace(s[p])
    ensures SkipForward(s, i) == p
    decreases p - i
  {
    if i < p {
      SkipForwardStops(s, i + 1, p);
    }
  }

  /** `SkipBackward` stops just after the last non-whitespace position. */
  lemma {:induction false} SkipBackwardStops(s: string, lo: nat, hi: nat, q: nat)
    requires lo <= q <= hi <= |s|
    requires forall j :: q <= j < hi ==> IsWhitespace(s[j])
    requires q == lo || !IsWhitespace(s[q - 1])
    ensures SkipBackward(s, lo, hi) == q
    decreases hi - q
  {
    if q < hi {
      SkipBackwardStops(s, lo, hi - 1, q);
    }
  }

  /**
   * `Trim` is characterised by its result alone: whenever `s` is a bare
   * middle part surrounded by whitespace, trimming yields that middle part.
   */
  lemma TrimExact(pre: string, m: string, post: string)
    requires AllWhitespace(pre) && AllWhitespace(post) && Bare(m)
    ensures Trim(pre + m + post) == m
  {
    var s := pre + m + post;
    var p, q := |pre|, |pre| + |m|;
    if m == [] {
      SkipForwardStops(s, 0, |s|);
      SkipBackwardStops(s, |s|, |s|, |s|);
    } else {
      assert s[p] == m[0] && s[q - 1] == m[|m| - 1];
      SkipForwardStops(s, 0, p);
      SkipBackwardStops(s, p, |s|, q);
      assert s[p..q] == m;
    }
  }

  /** Whitespace added around a string does not change what it trims to. */
  lemma TrimPadding(pre: string, x: string, post: string)
    requires AllWhitespace(pre) && AllWhitespace(post)
    ensures Trim(pre + x + post) == Trim(x)
  {
    var m := Trim(x);
    var k, e := TrimShape(x);
    var a, b := x[..k], x[e..];
    SliceThree(x, k, e);
    Regroup(pre, a, m, b, post);
    WhitespaceConcat(pre, a);
    WhitespaceConcat(b, post);
    TrimExact(pre + a, m, b + post);
  }

  predicate IsDigit(c: char)
  {
    '0' <= c <= '9'
  }

  predicate AllDigits(s: string)
  {
    forall i :: 0 <= i < |s| ==> IsDigit(s[i])
  }

  /** The number a string of decimal digits denotes. */
  function DigitsValue(ds: string): nat
    requires AllDigits(ds)
    decreases |ds|
  {
    if |ds| == 0 then 0
    else DigitsValue(ds[..|ds| - 1]) * 10 + ((ds[|ds| - 1] as int) - ('0' as int))
  }

  const U32Max: nat := 0xFFFF_FFFF

  /** What remains after an optional leading `+`. */
  function Unsigned(s: string): string
  {
    if |s| > 0 && s[0] == '+' then s[1..] else s
  }

  /**
   * `u32::from_str`: an optional `+`, then one or more ASCII digits whose
   * value fits in 32 bits. No sign other than `+`, no whitespace.
   */
  function ParseU32(s: string): (r: Option<nat>)
    ensures r.Some? ==> r.value <= U32Max
    ensures r.Some? ==> |s| > 0 && (IsDigit(s[0]) || s[0] == '+')
  {
    var ds := Unsigned(s);
    if |ds| == 0 || !AllDigits(ds) then None
    else if DigitsValue(ds) <= U32Max then Some(DigitsValue(ds))
    else None
  }

  function DigitChar(d: nat): (c: char)
    requires d < 10
    ensures IsDigit(c) && (c as int) - ('0' as int) == d
  {
    ((d + '0' as int) as char)
  }

  /** The shortest decimal representation of `n` (`n.to_string()`). */
  function Decimal(n: nat): string
    decreases n
  {
    if n < 10 then [DigitChar(n)] else Decimal(n / 10) + [DigitChar(n % 10)]
  }

  lemma {:induction false} DecimalValue(n: nat)
    ensures |Decimal(n)| > 0 && AllDigits(Decimal(n))
    ensures DigitsValue(Decimal(n)) == n
    decreases n
  {
    if n >= 10 {
      DecimalValue(n / 10);
      var s := Decimal(n);
      assert s[..|s| - 1] == Decimal(n / 10);
    }
  }

  /** Digits are not whitespace, so trimming leaves a decimal form alone. */
  lemma TrimDecimal(n: nat)
    ensures Trim(Decimal(n)) == Decimal(n)
    ensures IsDigit(Decimal(n)[0])
  {
    DecimalValue(n);
    var d := Decimal(n);
    assert IsDigit(d[0]) && IsDigit(d[|d| - 1]);
    TrimExact([], d, []);
    assert [] + d + [] == d;
  }

  /** `u32::from_str` reads back every 32-bit number's decimal form, with or without a `+`. */
  lemma ParseU32Decimal(n: nat)
    requires n <= U32Max
    ensures ParseU32(Decimal(n)) == Some(n)
    ensures ParseU32("+" + Decimal(n)) == Some(n)
  {
    DecimalValue(n);
    assert Unsigned("+" + Decimal(n)) == Decimal(n);
  }

  /** Decimal forms of numbers past 32 bits, and anything starting with `-`, are rejected. */
  lemma ParseU32Rejects(n: nat, rest: string)
    requires n > U32Max
    ensures ParseU32(Decimal(n)) == None
    ensures ParseU32("-" + rest) == None
  {
    DecimalValue(n);
  }

  /** `k` zero digits. */
  function Zeros(k: nat): (z: string)
    ensures |z| == k && AllDigits(z)
    ensures forall i :: 0 <= i < k ==> z[i] == '0'
  {
    seq(k, _ => '0')
  }

  /** A digit string in the form `Decimal` writes: no leading zero unless it is `0` itself. */
  predicate Canonical(ds: string)
  {
    |ds| > 0 && AllDigits(ds) && (|ds| == 1 || ds[0] != '0')
  }

  /** Leading zeros do not change the value of a digit string. */
  lemma {:induction false} LeadingZerosValue(k: nat, ds: string)
    requires AllDigits(ds)
    ensures AllDigits(Zeros(k) + ds)
    ensures DigitsValue(Zeros(k) + ds) == DigitsValue(ds)
    decreases |ds|, k
  {
    var s := Zeros(k) + ds;
    if |ds| > 0 {
      var init := ds[..|ds| - 1];
      assert s[..|s| - 1] == Zeros(k) + init;
      assert s[|s| - 1] == ds[|ds| - 1];
      LeadingZerosValue(k, init);
    } else if k > 0 {
      assert s == Zeros(k);
      assert s[..|s| - 1] == Zeros(k - 1) + [];
      LeadingZerosValue(k - 1, []);
    }
  }

  /** A canonical digit string is the decimal form of its own value. */
  lemma {:induction false} CanonicalIsDecimal(ds: string)
    requires Canonical(ds)
    ensures ds == Decimal(DigitsValue(ds))
    decreases |ds|
  {
    var v := DigitsValue(ds);
    var last := (ds[|ds| - 1] as int) - ('0' as int);
    if |ds| == 1 {
      assert ds[..0] == [];
      assert DigitsValue(ds[..0]) == 0;
      assert Decimal(v) == [DigitChar(v)];
    } else {
      var init := ds[..|ds| - 1];
      assert init[0] == ds[0];
      CanonicalIsDecimal(init);
      var w := DigitsValue(init);
      assert w != 0;
      assert v == w * 10 + last;
      assert v / 10 == w && v % 10 == last;
      assert ds == init + [ds[|ds| - 1]];
    }
  }

  /** Every non-empty digit string is some zeros followed by a canonical digit string. */
  lemma {:induction false} SplitLeadingZeros(ds: string) returns (k: nat)
    requires |ds| > 0 && AllDigits(ds)
    ensures k < |ds| && ds == Zeros(k) + ds[k..] && Canonical(ds[k..])
    decreases |ds|
  {
    if |ds| == 1 || ds[0] != '0' {
      k := 0;
      assert ds == Zeros(0) + ds[0..];
    } else {
      var j := SplitLeadingZeros(ds[1..]);
      k := j + 1;
      assert ds[1..][j..] == ds[k..];
      assert ds == [ds[0]] + ds[1..];
      assert Zeros(k) == [ds[0]] + Zeros(j);
    }
  }

  /**
   * Every string `u32::from_str` accepts is an optional `+`, some zeros,
   * then the decimal form of the value it reads.
   */
  lemma ParseU32Canonical(s: string) returns (sign: string, k: nat)
    requires ParseU32(s).Some?
    ensures sign == "" || sign == "+"
    ensures s == sign + Zeros(k) + Decimal(ParseU32(s).value)
  {
    var ds := Unsigned(s);
    sign := if |s| > 0 && s[0] == '+' then "+" else "";
    assert s == sign + ds;
    k := SplitLeadingZeros(ds);
    LeadingZerosValue(k, ds[k..]);
    CanonicalIsDecimal(ds[k..]);
    Associate(sign, Zeros(k), ds[k..]);
  }

  /**
   * Conversely, an optional `+`, any number of zeros and a decimal form
   * read as that number exactly when it fits in 32 bits.
   */
  lemma ParseU32Padded(sign: string, k: nat, n: nat)
    requires sign == "" || sign == "+"
    ensures ParseU32(sign + Zeros(k) + Decimal(n)) == if n <= U32Max then Some(n) else None
  {
    DecimalValue(n);
    var ds := Zeros(k) + Decimal(n);
    LeadingZerosValue(k, Decimal(n));
    assert ds[0] != '+';
    Associate(sign, Zeros(k), Decimal(n));
    assert Unsigned(sign + ds) == ds;
  }

  /** Bytes in the UTF-8 encoding of a character. */
  function Utf8Width(c: char): nat
  {
    if c as int < 0x80 then 1
    else if c as int < 0x800 then 2
    else if c as int < 0x1_0000 then 3
    else 4
  }

  /** `str::len`: the length of the UTF-8 encoding, in bytes. */
  function Utf8Len(s: string): nat
    decreases |s|
  {
    if |s| == 0 then 0 else Utf8Width(s[0]) + Utf8Len(s[1..])
  }

  predicate IsAscii(s: string)
  {
    forall i :: 0 <= i < |s| ==> s[i] as int < 0x80
  }

  /** A string takes between one and four bytes per character, and exactly one when it is ASCII. */
  lemma {:induction false} Utf8LenBounds(s: string)
    ensures |s| <= Utf8Len(s) <= 4 * |s|
    ensures IsAscii(s) ==> Utf8Len(s) == |s|
    decreases |s|
  {
    if |s| > 0 {
      Utf8LenBounds(s[1..]);
    }
  }
}
